=== FILE: README.md ===
# GraphDB client: SPARQL text assembly

A Dafny model of the part of the Python GraphDB client that turns structured
inputs into SPARQL query and update strings. This part does no I/O.

- **`Utils`** (`utils.dfy`) models the token normaliser of
  `graph_db_interface/utils/utils.py`:
  - adding and removing `<…>` delimiters;
  - classifying `prefix:local` shorthand IRIs;
  - preparing subjects, predicates and objects, or raising `InvalidIRIError`;
  - wrapping content in a `GRAPH <g> { … }` pattern (section 13.3 of the SPARQL 1.1
    Query Language);
  - escaping string literals;
  - extracting local names.
- **`QueryBuilder`** (`query_builder.dfy`) models the `SPARQLQuery` block builder of
  `graph_db_interface/graph_db_interface.py`:
  - the SELECT, ASK, INSERT DATA, DELETE DATA and DELETE/INSERT blocks (sections
    3.1.1–3.1.3 of SPARQL 1.1 Update);
  - the PREFIX preamble;
  - `to_string`, with its validator gate.

  The builder is an immutable value; each `add_*_block` returns the query with one
  more block. For every block layout there is a reader that takes the rendered text
  back apart, and the round-trip lemmas state that the reader recovers the inputs.
- **`GraphDbQueries`** (`graph_db_queries.dfy`) pulls out the pure fragments of three
  `GraphDB` methods:
  - the UNION/FILTER ASK query of `iri_exists`;
  - the BIND/FILTER classification of `triples_get`;
  - the replacement triple and DELETE/INSERT update of `triple_update`.
- **`Strings`** (`strings.dfy`) holds the Python `str` operations the code relies on:
  `strip`, `split`, `join`, `startswith`/`endswith`, `in`, `replace`. It also holds
  their algebra: split/join inverses and prefix and suffix facts.
- **`Wrappers`** (`wrappers.dfy`) holds `Option`, `Result` and the `InvalidIRIError`
  raise sites in `utils.py` (the class itself is defined in `exceptions.py`).

Modelling decisions:

- **Strings and maps.** Strings are `seq<char>`. A Python `dict` of prefixes is a
  sequence of `(name, iri)` entries in insertion order.
- **Raised exceptions** are `Err` values. The `IndexError` that `to_string` raises
  when it validates a query with no blocks is the `NoBlocksError` outcome.
- **Foreign code becomes parameters:**
  - the two rdflib-based validators, as `string -> bool` functions;
  - rdflib's `Literal.n3()`;
  - the literal rendering of `prepare_object(..., as_string=True)`;
  - the answer of the existence query that `triple_update` sends.
- **`is_iri`** is a stated approximation of `urlparse`: a scheme, then `//` and a
  non-empty network location.

## Model

| member | source | states |
|---|---|---|
| Utils.StripAngleBrackets | graph_db_interface/utils/utils.py:76-89 | A delimited IRI is exactly `<` + result + `>`; any other text comes back unchanged |
| Utils.EnsureAbsolute | graph_db_interface/utils/utils.py:58-64 | The result is delimited; a trimmed input that was already delimited is returned as is; otherwise removing the delimiters gives back the trimmed input |
| Utils.EnsureAbsoluteIdempotent | graph_db_interface/utils/utils.py:58-64 | Applying `ensure_absolute` twice gives the same result as applying it once |
| Utils.StripUndoesEnsureAbsolute | graph_db_interface/utils/utils.py:58-89 | `strip_angle_brackets(ensure_absolute(x))` equals the trimmed `x` exactly when the trimmed `x` was not already delimited |
| Utils.EnsureAbsoluteUndoesStrip | graph_db_interface/utils/utils.py:58-89 | Delimiting the stripped form of a delimited IRI with a trimmed, undelimited inside gives back the IRI |
| Utils.EnsureAbsoluteKeepsAbsent | graph_db_interface/utils/utils.py:58-64 | `ensure_absolute` adds no character other than `<` and `>` |
| Utils.IriHasColon | graph_db_interface/utils/utils.py:144-150 | Every IRI contains the colon that ends its scheme |
| Utils.IriOfParts | graph_db_interface/utils/utils.py:144-150 | A scheme (a letter, then scheme characters), `://` and an authority that does not open with `/`, `?` or `#` make an IRI, with or without `<…>` |
| Utils.SchemeThenAuthority | graph_db_interface/utils/utils.py:144-150 | In `scheme://rest`, the scheme test passes on the text before the first colon and the network-location test on the text after it |
| Utils.IriParts | graph_db_interface/utils/utils.py:144-150 | Conversely, every IRI is, inside its delimiters, a scheme, `://` and such an authority, split at its first colon |
| Utils.IsShorthandIri | graph_db_interface/utils/utils.py:153-186 | A shorthand IRI is never an IRI, and it contains a colon |
| Utils.ShorthandIriIff | graph_db_interface/utils/utils.py:166-186 | Shorthand iff not an IRI, exactly one colon, and, when a non-empty prefix map is given, the text before the colon is one of its keys |
| Utils.ShorthandNeedsOneColon | graph_db_interface/utils/utils.py:168-171 | A token with no colon or with several colons is never shorthand |
| Utils.PrepareSubjectOrPredicate | graph_db_interface/utils/utils.py:223-236 | Raises `InvalidIRIError` iff `ensure_iri` is set and the token is neither IRI nor shorthand; an IRI comes back delimited with the same inside; any other token comes back unchanged |
| Utils.PreparedSubjectIsCanonical | graph_db_interface/utils/utils.py:223-236 | With `ensure_iri`, a prepared term is delimited or has exactly one colon |
| Utils.ToLiteral | graph_db_interface/utils/utils.py:92-100 | The result is a literal. Any `str`, a `Literal` included, becomes a string-valued `xsd:string` literal: kept as is when its text holds `\"`, otherwise quoted, with the quoted text unescaping to the original. Any other value keeps its lexical form and datatype |
| Utils.PrepareObject | graph_db_interface/utils/utils.py:189-220 | With `ensure_iri`: a non-string raises, and a string that is neither IRI nor shorthand raises. Without it, nothing raises. An IRI comes back delimited, a shorthand IRI unchanged, and any other value as a literal |
| Utils.GraphOpening | graph_db_interface/utils/utils.py:250-255 | The wrapper opens with a line break, `GRAPH `, the delimited graph IRI and ` {` |
| Utils.EncapsulateNamedGraph | graph_db_interface/utils/utils.py:239-256 | Without a named graph the content is returned as is. With one, the result is the `GRAPH <g> {` opening, exactly the content, then the closing brace |
| Utils.UnwrapEncapsulate | graph_db_interface/utils/utils.py:239-256 | Unwrapping the named-graph pattern gives back exactly the content |
| Utils.EscapeStringLiteral | graph_db_interface/utils/utils.py:131-141 | A value other than a string-valued literal without `\"` is unchanged. Any other literal becomes a quoted `xsd:string` literal whose inner text has every `"` preceded by a backslash and unescapes to the original text |
| Utils.UnescapeEscape | graph_db_interface/utils/utils.py:138 | Unescaping `\"` back to `"` undoes the replacement, for every text |
| Utils.EscapeQuotesEscapesEvery | graph_db_interface/utils/utils.py:138 | After the replacement every `"` follows a backslash |
| Utils.EscapeQuotesUnique | graph_db_interface/utils/utils.py:138 | A text whose every `"` follows a backslash and that unescapes to `s` is exactly `s` with each `"` replaced by `\"`: the two facts above pin the replacement down |
| Utils.EscapeQuotesKeepsQuoteFree | graph_db_interface/utils/utils.py:138 | Text without a quote is not changed by the replacement |
| Utils.EscapedTextShowsEscapedQuote | graph_db_interface/utils/utils.py:136-139 | The escaped, quoted text contains `\"` iff the original contained a quote or ended with a backslash |
| Utils.EscapeStringLiteralIdempotentIff | graph_db_interface/utils/utils.py:131-141 | Escaping an escaped literal again changes nothing iff its original text contained a quote or ended with a backslash |
| Utils.EscapeTwiceWrapsTwice | graph_db_interface/utils/utils.py:131-141 | `ab` escapes to `"ab"` and then gains a second pair of quotes: the guard against double escaping does not stop it |
| Utils.GetLocalName | graph_db_interface/utils/utils.py:121-128 | After the delimiters are removed: with a non-empty fragment, the IRI is its text before `#`, then `#`, then the result. Otherwise the result is the `/`-free text after the last `/` (the whole text if there is none) |
| Utils.LocalNameIsLastSegment | graph_db_interface/utils/utils.py:121-128 | `<a/b>` without `#` and with a `/`-free `b` has local name `b` |
| Utils.LocalNameIsFragment | graph_db_interface/utils/utils.py:121-128 | `<a#f>` with `#`-free `a` and non-empty `f` has local name `f` |
| Utils.LocalNameOfPathIri | graph_db_interface/utils/utils.py:121-128 | Example of `LocalNameIsLastSegment`, not a separate property: the local name of `<http://example.org/subject>` is `subject` |
| Utils.LocalNameOfFragmentIri | graph_db_interface/utils/utils.py:121-128 | Example of `LocalNameIsFragment`, not a separate property: the local name of `<http://example.org/ns#frag>` is `frag` |
| QueryBuilder.NewQuery | graph_db_interface/graph_db_interface.py:30-41 | A new query has the given settings and no blocks |
| QueryBuilder.TripleLines | graph_db_interface/graph_db_interface.py:79-81 | One `s p o .` line per triple, in input order |
| QueryBuilder.TripleLineRoundTrip | graph_db_interface/graph_db_interface.py:80 | A triple line of space- and newline-free terms reads back as the triple |
| QueryBuilder.TriplesTextRoundTrip | graph_db_interface/graph_db_interface.py:79-81 | The newline-joined triple lines read back as the triples, in order |
| QueryBuilder.TriplesTextKeepsAbsent | graph_db_interface/graph_db_interface.py:79-81 | Joining triple lines adds no character other than spaces, dots and line breaks |
| QueryBuilder.VariableString | graph_db_interface/graph_db_interface.py:133-135 | `*` for no variables; otherwise text that starts with the first variable and ends with the last |
| QueryBuilder.VariableStringRoundTrip | graph_db_interface/graph_db_interface.py:133-135 | Splitting the variable string on spaces gives back the space-free variables |
| QueryBuilder.CombineWhereClauses | graph_db_interface/graph_db_interface.py:137-141 | Empty for no clauses; otherwise text that starts with the first clause and ends with the last |
| QueryBuilder.WhereClausesRoundTrip | graph_db_interface/graph_db_interface.py:137-141 | Combined non-empty single-line clauses read back as the clauses |
| QueryBuilder.ExplicitImplicitClause | graph_db_interface/graph_db_interface.py:151-156 | `FROM onto:explicit` iff explicit and not implicit; `FROM onto:implicit` iff implicit and not explicit; absent iff the flags are equal |
| QueryBuilder.PrefixLines | graph_db_interface/graph_db_interface.py:145-147 | One `PREFIX k: v` line per map entry, in map order |
| QueryBuilder.PrefixString | graph_db_interface/graph_db_interface.py:143-149 | The preamble ends with a line break and opens with the first entry's line |
| QueryBuilder.PrefixStringRoundTrip | graph_db_interface/graph_db_interface.py:143-149 | The preamble of a non-empty, well-formed map reads back as the map, entries in order |
| QueryBuilder.SelectBlockData | graph_db_interface/graph_db_interface.py:48-56 | The SELECT block opens with `SELECT` and the variable string and ends with the `WHERE {…}` group |
| QueryBuilder.SelectBlockRoundTrip | graph_db_interface/graph_db_interface.py:48-56 | Past its header lines, the SELECT block's `WHERE {…}` group reads back as the where clauses it was built from |
| QueryBuilder.SelectBlockLines | graph_db_interface/graph_db_interface.py:48-56 | Line by line: the `SELECT` line is first. `FROM <g>` is second iff a named graph is set. The explicit/implicit line follows when present. The `WHERE {` line comes last |
| QueryBuilder.AskBlockRoundTrip | graph_db_interface/graph_db_interface.py:59-72 | The ASK block's `WHERE` body, unwrapped from the named graph, reads back as the where clauses |
| QueryBuilder.DataBlockRoundTrip | graph_db_interface/graph_db_interface.py:74-106 | An INSERT DATA or DELETE DATA block reads back as its triples. The reader takes the keyword group, unwraps the named graph, then parses the triple lines |
| QueryBuilder.DeleteInsertLayout | graph_db_interface/graph_db_interface.py:114-128 | The DELETE/INSERT block is `WITH <g>` and a line break iff a named graph is set, then the `DELETE`, `INSERT` and `WHERE` groups in that order, each present even when empty |
| QueryBuilder.DeleteInsertRoundTrip | graph_db_interface/graph_db_interface.py:108-131 | Splitting the DELETE/INSERT block at its closing braces gives back the deleted triples, the inserted triples and the where clauses |
| QueryBuilder.AddSelectBlock | graph_db_interface/graph_db_interface.py:43-57 | Appends exactly one SELECT block; the settings and earlier blocks are unchanged |
| QueryBuilder.AddAskBlock | graph_db_interface/graph_db_interface.py:59-72 | Appends exactly one ASK block; the settings and earlier blocks are unchanged |
| QueryBuilder.AddInsertDataBlock | graph_db_interface/graph_db_interface.py:74-89 | Appends exactly one INSERT DATA block holding the data text of the triples; the rest is unchanged |
| QueryBuilder.AddDeleteDataBlock | graph_db_interface/graph_db_interface.py:91-106 | Appends exactly one DELETE DATA block holding the data text of the triples; the rest is unchanged |
| QueryBuilder.AddDeleteInsertBlock | graph_db_interface/graph_db_interface.py:108-131 | Appends exactly one DELETE/INSERT block; the settings and earlier blocks are unchanged |
| QueryBuilder.BlockTexts | graph_db_interface/graph_db_interface.py:163-164 | The block texts in insertion order |
| QueryBuilder.QueryText | graph_db_interface/graph_db_interface.py:159-166 | With prefixes, the query starts with the preamble; without them, it is the newline-joined block texts. It ends with the last block |
| QueryBuilder.QueryTextAppend | graph_db_interface/graph_db_interface.py:159-166 | Adding a block extends the query text by a line break and the block's text (or starts it, for an empty query) |
| QueryBuilder.QueryTextWithPrefixes | graph_db_interface/graph_db_interface.py:159-166 | With prefixes and blocks, the query is the preamble, a line break, and the joined blocks |
| QueryBuilder.SingleBlockText | graph_db_interface/graph_db_interface.py:159-166 | A one-block query is the block, after the preamble and a line break when prefixes are given |
| QueryBuilder.ValidatorFor | graph_db_interface/graph_db_interface.py:167-189 | The read validator iff the first block is SELECT, SELECT DISTINCT, SELECT REDUCED or ASK. The update validator iff it is INSERT DATA, DELETE DATA or DELETE/INSERT. Otherwise none |
| QueryBuilder.ToString | graph_db_interface/graph_db_interface.py:158-190 | A rendered query is the query text. The `IndexError` outcome occurs iff validating with no blocks. Without validation the query is always rendered. With it, the query is rendered iff the validator chosen by the first block accepts it |
| GraphDbQueries.NamedGraphString | graph_db_interface/graph_db_interface.py:321-325 | `GRAPH g` with the name as given iff a named graph is given, otherwise empty |
| GraphDbQueries.SelectedPositions | graph_db_interface/graph_db_interface.py:548-554 | Each position is selected iff its flag is set, in subject, predicate, object order |
| GraphDbQueries.IriClausesArePositions | graph_db_interface/graph_db_interface.py:548-554 | The clause list is the braced pattern of each selected position, in order |
| GraphDbQueries.Inequalities | graph_db_interface/graph_db_interface.py:567 | One `?v != x` per excluded IRI, in order |
| GraphDbQueries.FilterConditions | graph_db_interface/graph_db_interface.py:563-568 | At most one condition per filter entry, each opening with `FILTER (` |
| GraphDbQueries.FilteringEntries | graph_db_interface/graph_db_interface.py:565-566 | The entries that filter all have a non-empty list |
| GraphDbQueries.FilterConditionsOfFilteringEntries | graph_db_interface/graph_db_interface.py:563-568 | The conditions are exactly those of the entries with non-empty lists, in order |
| GraphDbQueries.FilterConditionShape | graph_db_interface/graph_db_interface.py:567-568 | A condition opens with `FILTER (?v != ` and the first excluded IRI, and closes with the last excluded IRI and `)` |
| GraphDbQueries.IriExistsQuery | graph_db_interface/graph_db_interface.py:548-574 | No query (the method answers false) iff no position flag is set |
| GraphDbQueries.ReadUnionJoin | graph_db_interface/graph_db_interface.py:570-573 | Clauses that each close with their only `}`, joined by ` UNION `, read back as the clauses |
| GraphDbQueries.IriExistsQueryRoundTrip | graph_db_interface/graph_db_interface.py:548-574 | For an IRI without `}`, the text between the `ASK WHERE {` head and the filter tail reads back as one braced pattern per set flag, in subject, predicate, object order |
| GraphDbQueries.IriExistsQueryShape | graph_db_interface/graph_db_interface.py:570-574 | The query opens with `ASK WHERE {`, the graph and the first clause, and closes with the filter conditions and two braces |
| GraphDbQueries.BindOrFilterKind | graph_db_interface/graph_db_interface.py:658-667 | An IRI or shorthand IRI yields a `BIND(`; any other term yields a `FILTER(` |
| GraphDbQueries.BindOfIri | graph_db_interface/graph_db_interface.py:659-660 | An IRI is bound to the variable in its delimited form |
| GraphDbQueries.FilterOfText | graph_db_interface/graph_db_interface.py:666-667 | Text that is neither IRI nor shorthand becomes a `CONTAINS(STR(var), '…')` filter |
| GraphDbQueries.AppendBindAndFilter | graph_db_interface/graph_db_interface.py:658-667 | Exactly one of the two lists grows by the term's clause: the BIND list for a bound term, the FILTER list otherwise |
| GraphDbQueries.TriplesGetWhere | graph_db_interface/graph_db_interface.py:649-696 | No where clauses (the method returns an empty list) iff no term is given |
| GraphDbQueries.TriplesGetClausesCounts | graph_db_interface/graph_db_interface.py:668-676 | One clause per given term: as many BINDs as bound terms, every BIND-list entry a BIND and every FILTER-list entry a FILTER |
| GraphDbQueries.TriplesGetWhereShape | graph_db_interface/graph_db_interface.py:668-696 | The where clauses are the BINDs, then `?s ?p ?o .`, then the FILTERs: one more clause than given terms |
| GraphDbQueries.TriplesGetBindsIri | graph_db_interface/graph_db_interface.py:659-669 | An IRI subject yields the first BIND, of its delimited form to `?s` |
| GraphDbQueries.TriplesGetFiltersText | graph_db_interface/graph_db_interface.py:658-669 | A plain-text subject yields the first FILTER, a substring test on `?s` |
| GraphDbQueries.AppendIfGivenPrefix | graph_db_interface/graph_db_interface.py:668-676 | Folding in a term only appends: earlier clauses stay in place |
| GraphDbQueries.TriplesGetSelect | graph_db_interface/graph_db_interface.py:688-697 | The query carries the client's named graph and prefixes and the two include flags, and holds one SELECT block of `?s ?p ?o` over the given where clauses |
| GraphDbQueries.TriplesGetSelectRoundTrip | graph_db_interface/graph_db_interface.py:688-697 | The SELECT block's first line is `SELECT ?s ?p ?o`, and its `WHERE` group reads back as exactly the given clauses |
| GraphDbQueries.TriplesGetQuery | graph_db_interface/graph_db_interface.py:649-703 | No query when no term is given. Otherwise a query iff the read validator accepts the rendered SELECT, and the query is that text |
| GraphDbQueries.TriplesGetSelectText | graph_db_interface/graph_db_interface.py:688-698 | The query opens with the PREFIX preamble when prefixes are given, else with `SELECT ?s ?p ?o` |
| GraphDbQueries.ObjectTerm | graph_db_interface/utils/utils.py:207-220 | An IRI is delimited, a shorthand IRI kept, anything else rendered as a literal |
| GraphDbQueries.Replacement | graph_db_interface/graph_db_interface.py:893-895 | Each position takes the new term when it is given and non-empty, else the old term. `PrepareNew` passes a new object only when its prepared value is truthy |
| GraphDbQueries.ObjectTermTruthyCases | graph_db_interface/utils/utils.py:198-220 | `bool()` of the prepared object. An IRI and a plain-`str` shorthand are always truthy. A shorthand `Literal` comes back unchanged, so the literal's own truthiness decides. A rendered literal is truthy iff its text is non-empty |
| GraphDbQueries.PreparedTermsGiven | graph_db_interface/graph_db_interface.py:881-895 | A prepared new subject or predicate is non-empty, so a given one always replaces the old term |
| GraphDbQueries.PrepareOld | graph_db_interface/graph_db_interface.py:864-868 | The old triple is prepared iff its subject and predicate are IRIs or shorthand (else `InvalidIRIError`); the object becomes a triple term |
| GraphDbQueries.PrepareNew | graph_db_interface/graph_db_interface.py:881-895 | Raises iff a given new subject or predicate is invalid. Each given new subject or predicate is taken prepared. A new object is taken when `bool()` of its prepared value holds. Every other position keeps the old term |
| GraphDbQueries.NewObjectTerm | graph_db_interface/graph_db_interface.py:889-895 | The new object is kept iff it is given and `bool()` of its prepared value holds, and then it is the prepared term |
| GraphDbQueries.FalsyShorthandKeepsOldObject | graph_db_interface/graph_db_interface.py:889-895 | A falsy shorthand `Literal` as the only new part leaves the old triple as the replacement |
| GraphDbQueries.UpdateQueryOf | graph_db_interface/graph_db_interface.py:897-906 | One DELETE/INSERT block that deletes the old triple, inserts the replacement and matches the old triple |
| GraphDbQueries.BuildUpdate | graph_db_interface/graph_db_interface.py:907-909 | An update iff the update validator accepts the rendered query, which is then the query text; otherwise the method gives up |
| GraphDbQueries.UpdateFromOld | graph_db_interface/graph_db_interface.py:870-909 | After the old triple is prepared: gives up iff the existence check is requested and fails. Past it, raises (only `InvalidIRIError`) iff a new subject or predicate fails to prepare, and builds an update iff they prepare and the update validator accepts the rendered query. An update deletes the prepared old triple, inserts its replacement and passed validation |
| GraphDbQueries.TripleUpdate | graph_db_interface/graph_db_interface.py:850-909 | Gives up iff an old part is missing or falsy, and separately iff all new parts are `None`. Past these gates: raises (only `InvalidIRIError`) iff an old subject or predicate fails to prepare, or the existence check passes and a new one fails; gives up on the existence check iff the old triple prepares and the requested check fails; builds an update iff everything prepares, the check passes and the update validator accepts. An update holds the prepared old triple and its replacement |
| GraphDbQueries.UpdateQueryRoundTrip | graph_db_interface/graph_db_interface.py:897-906 | The update reads back as deleting exactly the old triple, inserting exactly the replacement and matching the old triple's line |
| GraphDbQueries.TripleUpdateRoundTrip | graph_db_interface/graph_db_interface.py:850-909 | The query of a successful `triple_update` reads back as the deleted and inserted triples it reports |

## Left out

- HTTP, authentication and REST are left out: network I/O. This covers `_make_request`, `_get_authentication_token`, `query`, the repository and named-graph listings and management, the property setters, and `graph_db_interface/queries/named_graph.py`.
- `validate_query` and `validate_update_query` wrap rdflib's SPARQL parser. They appear as the `readValid` / `updateValid` parameters; the SPARQL grammar is not modelled.
- Utils.IsIri approximates `urlparse`. Scheme and network location follow the RFC 3986 shape: a letter, scheme characters, `:`, `//`, a non-empty authority. It leaves out the WHATWG whitespace and control-character preprocessing. It also leaves out every `ValueError` that `urlsplit` raises, where the source raises and the model answers (and so does every caller of `is_iri`). These errors are: an unbalanced `[` or `]` in the network location; an invalid bracketed host, rejected by `_check_bracketed_netloc`; and a non-ASCII network location whose NFKC normalisation introduces one of `/?#@:`, rejected by `_checknetloc`. For `http://a\u2100b/x` the source raises and the model gives true.
- rdflib literal handling is a foreign library and is left out: `to_literal` with `as_string`, `Literal.n3()`, `from_xsd_literal`, `convert_query_result_to_python_type`. A literal is a record of its lexical text, datatype and truthiness. `n3()` and the `as_string=True` rendering of `prepare_object` are the `n3` and `renderLiteral` parameters.
- Utils.GetLocalName: the fragment is the text after the first `#`. `urlsplit`'s preprocessing is not modelled: it deletes tab, CR and LF, and strips leading C0 controls and spaces. For `http://x/a#b<TAB>c` the source gives `bc` and the model `b<TAB>c`. Nor is any of `urlsplit`'s `ValueError`s, where the source raises and the model returns a name. These errors are: an unbalanced `[` or `]` in the network location; an invalid bracketed host, rejected by `_check_bracketed_netloc`; and a non-ASCII network location whose NFKC normalisation introduces one of `/?#@:`, rejected by `_checknetloc`. For `http://a\u2100b/x` the source raises and the model gives `x`.
- GraphDbQueries.TripleUpdate: a caller's omitted arguments are passed as the source's defaults, so an omitted `old_object` is `Some(Text("?o"))` and an omitted `check_exist` is `true`. `None` stands only for an explicit `None`. The `named_graph` argument is unused by the source, so it is not a parameter; `ng` is the client's own named graph.
- GraphDbQueries.IriExistsQueryRoundTrip requires an IRI without `}`, which RFC 3987 does not allow in an IRI; with one, the clauses cannot be told apart at their braces.
- Utils.PrepareObject: without `ensure_iri`, a non-IRI string or literal is only known to come back as a literal (via `ToLiteral`). The `as_string=True` path that renders it through `n3()` is the `renderLiteral` parameter.
- `GraphDB.construct_query` is a legacy duplicate of the block builder with different output, and is left out. So are `GraphDB._add_prefix` and `GraphDB._get_prefix_string`, which repeats the builder's preamble.
- The dispatch and result handling of `iri_exists`, `triples_get` and `triple_update` are left out: they are requests to the server. For these three methods only the query text is modelled. `triple_exists`, `triple_add` and `triple_delete` (graph_db_interface.py lines 587-624, 718-756 and 758-804) are left out entirely, since they too only send a request. The blocks they build are the modelled `AddAskBlock`, `AddInsertDataBlock` and `AddDeleteDataBlock`. The `iri_exists` call also passes `include_explicit`/`include_implicit` keywords that `query` (lines 413-417) does not accept.
- GraphDbQueries.TripleUpdate: the existence check sends a `triple_exists` request. Its answer is the `oldExists` parameter.
- GraphDbQueries.FilteringEntries states only that each selected entry filters. The pairing with the conditions, in order, is stated by `FilterConditionsOfFilteringEntries`.
- `owl_get_classes_of_individual`, `owl_is_named_individual` and `is_subclass` are left out: they are thin wrappers around query dispatch.
- Logging, `print` and the package `__init__.py` are left out: they have no effect on the query text.
- The tests are left out: they need a live server and refer to APIs not in the source.
- The messages of the exceptions in `exceptions.py` are left out; only which site raised is kept.

=== FILE: graph_db_queries.dfy ===
/**
  The query fragments that `GraphDB` methods of `graph_db_interface/graph_db_interface.py`
  assemble before dispatching a request: the ASK query of `iri_exists`, the BIND and
  FILTER clauses of `triples_get`, and the DELETE/INSERT update of `triple_update`.
  The request itself, and its result, are not part of this module; where a method
  consults the server first (the existence check of `triple_update`) the answer is
  a parameter.
 */
module GraphDbQueries {
  import opened Wrappers
  import opened Strings
  import opened Utils
  import opened QueryBuilder

  // ---------------------------------------------------------------------------
  // iri_exists
  // ---------------------------------------------------------------------------

  /** `_named_graph_string`: `GRAPH g` with the name as given, or nothing. */
  function NamedGraphString(ng: Option<string>): (r: string)
    ensures NamedGraphSet(ng) <==> r != ""
    ensures NamedGraphSet(ng) ==> r == "GRAPH " + ng.value
  {
    if NamedGraphSet(ng) then "GRAPH " + ng.value else ""
  }

  /** A triple position in which `iri_exists` may look for the IRI. */
  datatype Position = SubjectPos | PredicatePos | ObjectPos

  /** The positions whose flags are set, in subject, predicate, object order. */
  function SelectedPositions(asSubject: bool, asPredicate: bool, asObject: bool): (ps: seq<Position>)
    ensures SubjectPos in ps <==> asSubject
    ensures PredicatePos in ps <==> asPredicate
    ensures ObjectPos in ps <==> asObject
    ensures forall i, j :: 0 <= i < j < |ps| ==> PositionRank(ps[i]) < PositionRank(ps[j])
  {
    (if asSubject then [SubjectPos] else [])
      + (if asPredicate then [PredicatePos] else [])
      + (if asObject then [ObjectPos] else [])
  }

  /** Subject before predicate before object. */
  function PositionRank(p: Position): nat {
    match p
    case SubjectPos => 0
    case PredicatePos => 1
    case ObjectPos => 2
  }

  /** The braced triple pattern with the IRI in the given position. */
  function PositionClause(iri: string, p: Position): string {
    match p
    case SubjectPos => "{" + iri + " ?p ?o . }"
    case PredicatePos => "{?s " + iri + " ?o . }"
    case ObjectPos => "{?s ?p " + iri + " . }"
  }

  /** The clause list `iri_exists` builds: one braced pattern per set flag, in subject, predicate, object order. */
  function IriClauses(iri: string, asSubject: bool, asPredicate: bool, asObject: bool): seq<string> {
    (if asSubject then ["{" + iri + " ?p ?o . }"] else [])
      + (if asPredicate then ["{?s " + iri + " ?o . }"] else [])
      + (if asObject then ["{?s ?p " + iri + " . }"] else [])
  }

  /** One entry of the `filters` dictionary: a variable name and the IRIs to exclude for it. */
  datatype FilterEntry = FilterEntry(variable: string, values: seq<string>)

  /** `?v != x` for each excluded IRI. */
  function Inequalities(variable: string, values: seq<string>): (r: seq<string>)
    ensures |r| == |values|
    ensures forall i :: 0 <= i < |values| ==> r[i] == "?" + variable + " != " + values[i]
  {
    if |values| == 0 then [] else ["?" + variable + " != " + values[0]] + Inequalities(variable, values[1..])
  }

  /** `FILTER (?v != x && ...)` for one entry. */
  function FilterCondition(e: FilterEntry): string {
    "FILTER (" + Join(Inequalities(e.variable, e.values), " && ") + ")"
  }

  /** Every condition opens with `FILTER (`. */
  lemma FilterConditionOpens(e: FilterEntry)
    ensures StartsWith(FilterCondition(e), "FILTER (")
  {
    PrefixOfConcat("FILTER (", Join(Inequalities(e.variable, e.values), " && ") + ")");
  }

  /** The loop over `filters.items()`: a condition for every entry with a non-empty list. */
  function FilterConditions(entries: seq<FilterEntry>): (r: seq<string>)
    ensures |r| <= |entries|
    ensures AllStartWith(r, "FILTER (")
  {
    if |entries| == 0 then []
    else if |entries[0].values| > 0 then
      FilterConditionOpens(entries[0]);
      AllStartWithCons(FilterCondition(entries[0]), FilterConditions(entries[1..]), "FILTER (");
      [FilterCondition(entries[0])] + FilterConditions(entries[1..])
    else FilterConditions(entries[1..])
  }

  /** The entries with a non-empty list, in order: an independent statement of which entries filter. */
  function FilteringEntries(entries: seq<FilterEntry>): (r: seq<FilterEntry>)
    ensures forall i :: 0 <= i < |r| ==> |r[i].values| > 0
  {
    if |entries| == 0 then []
    else if |entries[0].values| > 0 then [entries[0]] + FilteringEntries(entries[1..])
    else FilteringEntries(entries[1..])
  }

  /** The filter conditions of the query: none when `filters` is `None` or empty. */
  function FilterClause(filters: Option<seq<FilterEntry>>): string {
    if filters.Some? && |filters.value| > 0 then Join(FilterConditions(filters.value), " ") else ""
  }

  /** The query text around the UNION of the clauses. */
  function IriExistsText(clauses: seq<string>, filters: Option<seq<FilterEntry>>, ng: Option<string>): string {
    "ASK WHERE { " + NamedGraphString(ng) + " { " + Join(clauses, UnionSep) + (" " + FilterClause(filters) + " } }")
  }

  /**
    The ASK query `iri_exists` dispatches, or `None` when no position flag is set
    (the method then answers false without querying).
   */
  function IriExistsQuery(iri: string, asSubject: bool, asPredicate: bool, asObject: bool,
                          filters: Option<seq<FilterEntry>>, ng: Option<string>): (r: Option<string>)
    ensures r.None? <==> !asSubject && !asPredicate && !asObject
  {
    var clauses := IriClauses(iri, asSubject, asPredicate, asObject);
    if |clauses| == 0 then None else Some(IriExistsText(clauses, filters, ng))
  }

  /** The query text opens with the first clause and closes with the filters. */
  lemma IriExistsTextShape(clauses: seq<string>, filters: Option<seq<FilterEntry>>, ng: Option<string>)
    requires |clauses| > 0
    ensures StartsWith(IriExistsText(clauses, filters, ng), "ASK WHERE { " + NamedGraphString(ng) + " { " + clauses[0])
    ensures EndsWith(IriExistsText(clauses, filters, ng), " " + FilterClause(filters) + " } }")
  {
    var head := "ASK WHERE { " + NamedGraphString(ng) + " { ";
    var union := Join(clauses, UnionSep);
    var tail := " " + FilterClause(filters) + " } }";
    StartsWithInside(head, union, clauses[0], tail);
    SuffixOfConcat(head + union, tail);
  }

  /**
    The query opens with `ASK WHERE {`, the graph (when one is named) and the first
    clause, and closes with the filter conditions and the two closing braces.
   */
  lemma IriExistsQueryShape(iri: string, asSubject: bool, asPredicate: bool, asObject: bool,
                            filters: Option<seq<FilterEntry>>, ng: Option<string>)
    requires asSubject || asPredicate || asObject
    ensures var r := IriExistsQuery(iri, asSubject, asPredicate, asObject, filters, ng);
      var clauses := IriClauses(iri, asSubject, asPredicate, asObject);
      && r.Some? && |clauses| > 0
      && StartsWith(r.value, "ASK WHERE { " + NamedGraphString(ng) + " { " + clauses[0])
      && EndsWith(r.value, " " + FilterClause(filters) + " } }")
  {
    IriExistsTextShape(IriClauses(iri, asSubject, asPredicate, asObject), filters, ng);
  }

  /** The clauses are exactly the position patterns of the selected positions, in order. */
  lemma IriClausesArePositions(iri: string, asSubject: bool, asPredicate: bool, asObject: bool)
    ensures var cs := IriClauses(iri, asSubject, asPredicate, asObject);
      var ps := SelectedPositions(asSubject, asPredicate, asObject);
      |cs| == |ps| && forall i :: 0 <= i < |ps| ==> cs[i] == PositionClause(iri, ps[i])
  {
    var sc := if asSubject then [PositionClause(iri, SubjectPos)] else [];
    var pc := if asPredicate then [PositionClause(iri, PredicatePos)] else [];
    var oc := if asObject then [PositionClause(iri, ObjectPos)] else [];
    var sp := if asSubject then [SubjectPos] else [];
    var pp := if asPredicate then [PredicatePos] else [];
    var op := if asObject then [ObjectPos] else [];
    assert IriClauses(iri, asSubject, asPredicate, asObject) == sc + pc + oc;
    assert SelectedPositions(asSubject, asPredicate, asObject) == sp + pp + op;
  }

  /** The separator between the clauses of the UNION. */
  const UnionSep: string := " UNION "

  /** A clause that closes with its only `}`, as every position pattern does. */
  predicate ClosedOnce(c: string) {
    |c| > 0 && c[|c| - 1] == '}' && '}' !in c[..|c| - 1]
  }

  /** Reads a ` UNION `-joined list of clauses back, each clause running up to and including its `}`. */
  function ReadUnion(text: string): Option<seq<string>>
    decreases |text|
  {
    if '}' !in text then None
    else
      var clause := TextBefore(text, '}') + "}";
      var rest := TextAfter(text, '}');
      if rest == "" then Some([clause])
      else if StartsWith(rest, UnionSep) then
        match ReadUnion(rest[|UnionSep|..])
        case Some(cs) => Some([clause] + cs)
        case None => None
      else None
  }

  /** Reads the clauses back out of an `iri_exists` query with the given filters and graph. */
  function ReadIriExists(text: string, filters: Option<seq<FilterEntry>>, ng: Option<string>): Option<seq<string>> {
    var head := "ASK WHERE { " + NamedGraphString(ng) + " { ";
    var tail := " " + FilterClause(filters) + " } }";
    if StartsWith(text, head) && |text| >= |head| + |tail| && EndsWith(text, tail)
    then ReadUnion(text[|head|..|text| - |tail|])
    else None
  }

  /** A single clause closing with its only `}` reads back as itself. */
  lemma ReadUnionLast(c: string)
    requires ClosedOnce(c)
    ensures ReadUnion(c) == Some([c])
  {
    var a := c[..|c| - 1];
    assert '}' in c && TextBefore(c, '}') + "}" == c && TextAfter(c, '}') == "" by {
      assert c == a + ['}'] + "";
      CutAtFirst(a, "", '}');
    }
  }

  /** A clause closing with its only `}`, then ` UNION ` and readable text, reads back as the clause and the rest. */
  lemma ReadUnionStep(c: string, t: string, cs: seq<string>)
    requires ClosedOnce(c) && ReadUnion(t) == Some(cs)
    ensures ReadUnion(c + UnionSep + t) == Some([c] + cs)
  {
    UnionCut(c, t);
    ReadUnionUnfold(c + UnionSep + t, c, t, cs);
  }

  /** A clause closing with its only `}`, then ` UNION ` and more text, is cut at that `}`. */
  lemma UnionCut(c: string, t: string)
    requires ClosedOnce(c)
    ensures var text := c + UnionSep + t;
      '}' in text && TextBefore(text, '}') + "}" == c && TextAfter(text, '}') == UnionSep + t
  {
    var a := c[..|c| - 1];
    var text := c + UnionSep + t;
    var rest := UnionSep + t;
    assert text == a + ['}'] + rest by {
      ConcatAssoc(c, UnionSep, t);
      assert c == a + ['}'];
    }
    CutAtFirst(a, rest, '}');
    assert a + "}" == c;
  }

  /** One step of `ReadUnion`: the clause up to the first `}`, then the separator and readable text. */
  lemma ReadUnionUnfold(text: string, c: string, t: string, cs: seq<string>)
    requires '}' in text && TextBefore(text, '}') + "}" == c && TextAfter(text, '}') == UnionSep + t
    requires ReadUnion(t) == Some(cs)
    ensures ReadUnion(text) == Some([c] + cs)
  {
    DropOpening(UnionSep, t);
  }

  /** A ` UNION `-joined list of clauses, each closing with its only `}`, reads back as the list. */
  lemma {:induction false} ReadUnionJoin(cs: seq<string>)
    requires |cs| > 0
    requires forall i :: 0 <= i < |cs| ==> ClosedOnce(cs[i])
    ensures ReadUnion(Join(cs, UnionSep)) == Some(cs)
  {
    if |cs| == 1 {
      ReadUnionOne(cs);
    } else {
      var rest := cs[1..];
      assert forall i :: 0 <= i < |rest| ==> ClosedOnce(rest[i]) by {
        forall i | 0 <= i < |rest|
          ensures ClosedOnce(rest[i])
        {
          assert rest[i] == cs[i + 1];
        }
      }
      ReadUnionJoin(rest);
      ReadUnionCons(cs);
    }
  }

  /** The base case of `ReadUnionJoin`: one clause. */
  lemma ReadUnionOne(cs: seq<string>)
    requires |cs| == 1 && ClosedOnce(cs[0])
    ensures ReadUnion(Join(cs, UnionSep)) == Some(cs)
  {
    var c := cs[0];
    ReadUnionLast(c);
    assert cs == [c];
  }

  /** The step of `ReadUnionJoin`: a first clause before a readable join of the rest. */
  lemma ReadUnionCons(cs: seq<string>)
    requires |cs| > 1 && ClosedOnce(cs[0])
    requires ReadUnion(Join(cs[1..], UnionSep)) == Some(cs[1..])
    ensures ReadUnion(Join(cs, UnionSep)) == Some(cs)
  {
    var c := cs[0];
    var rest := cs[1..];
    assert cs == [c] + rest && Join(cs, UnionSep) == c + UnionSep + Join(rest, UnionSep) by {
      assert cs == [c] + rest;
      JoinCons(c, rest, UnionSep);
    }
    ReadUnionStep(c, Join(rest, UnionSep), rest);
  }

  /** Every position pattern of an IRI without `}` closes with its only `}`. */
  lemma PositionClauseClosedOnce(iri: string, p: Position)
    requires '}' !in iri
    ensures ClosedOnce(PositionClause(iri, p))
  {
    var c := PositionClause(iri, p);
    var body := match p
      case SubjectPos => "{" + iri + " ?p ?o . "
      case PredicatePos => "{?s " + iri + " ?o . "
      case ObjectPos => "{?s ?p " + iri + " . ";
    assert c == body + "}";
    assert c[..|c| - 1] == body;
    match p
    case SubjectPos =>
      AbsentFromConcat("{", iri, '}');
      AbsentFromConcat("{" + iri, " ?p ?o . ", '}');
    case PredicatePos =>
      AbsentFromConcat("{?s ", iri, '}');
      AbsentFromConcat("{?s " + iri, " ?o . ", '}');
    case ObjectPos =>
      AbsentFromConcat("{?s ?p ", iri, '}');
      AbsentFromConcat("{?s ?p " + iri, " . ", '}');
  }

  /**
    The `iri_exists` query reads back as its clauses: one braced pattern per set
    flag, in subject, predicate, object order, joined by ` UNION ` between the
    `ASK WHERE {` head and the filter conditions.
   */
  lemma IriExistsQueryRoundTrip(iri: string, asSubject: bool, asPredicate: bool, asObject: bool,
                                filters: Option<seq<FilterEntry>>, ng: Option<string>)
    requires asSubject || asPredicate || asObject
    requires '}' !in iri
    ensures var r := IriExistsQuery(iri, asSubject, asPredicate, asObject, filters, ng);
      var ps := SelectedPositions(asSubject, asPredicate, asObject);
      && r.Some?
      && ReadIriExists(r.value, filters, ng).Some?
      && var cs := ReadIriExists(r.value, filters, ng).value;
      && |cs| == |ps|
      && forall i :: 0 <= i < |ps| ==> cs[i] == PositionClause(iri, ps[i])
  {
    var cs := IriClauses(iri, asSubject, asPredicate, asObject);
    assert forall i :: 0 <= i < |cs| ==> ClosedOnce(cs[i]) by {
      IriClausesClosedOnce(iri, asSubject, asPredicate, asObject);
    }
    ReadIriExistsText(cs, filters, ng);
    IriClausesArePositions(iri, asSubject, asPredicate, asObject);
  }

  /** The clauses of an IRI without `}` each close with their only `}`. */
  lemma IriClausesClosedOnce(iri: string, asSubject: bool, asPredicate: bool, asObject: bool)
    requires '}' !in iri
    ensures var cs := IriClauses(iri, asSubject, asPredicate, asObject);
      forall i :: 0 <= i < |cs| ==> ClosedOnce(cs[i])
  {
    var cs := IriClauses(iri, asSubject, asPredicate, asObject);
    var ps := SelectedPositions(asSubject, asPredicate, asObject);
    IriClausesArePositions(iri, asSubject, asPredicate, asObject);
    forall i | 0 <= i < |cs|
      ensures ClosedOnce(cs[i])
    {
      PositionClauseClosedOnce(iri, ps[i]);
    }
  }

  /** The query text around a UNION of clauses reads back as the clauses. */
  lemma ReadIriExistsText(cs: seq<string>, filters: Option<seq<FilterEntry>>, ng: Option<string>)
    requires |cs| > 0
    requires forall i :: 0 <= i < |cs| ==> ClosedOnce(cs[i])
    ensures ReadIriExists(IriExistsText(cs, filters, ng), filters, ng) == Some(cs)
  {
    ReadUnionJoin(cs);
    var head := "ASK WHERE { " + NamedGraphString(ng) + " { ";
    var tail := " " + FilterClause(filters) + " } }";
    Enclosed(head, Join(cs, UnionSep), tail);
  }

  /** The condition of each entry, in order. */
  function ConditionsOf(es: seq<FilterEntry>): (r: seq<string>)
    ensures |r| == |es|
    ensures forall i :: 0 <= i < |es| ==> r[i] == FilterCondition(es[i])
  {
    if |es| == 0 then [] else [FilterCondition(es[0])] + ConditionsOf(es[1..])
  }

  /** The conditions are exactly those of the entries whose lists are non-empty, in order. */
  lemma {:induction false} FilterConditionsOfFilteringEntries(entries: seq<FilterEntry>)
    ensures FilterConditions(entries) == ConditionsOf(FilteringEntries(entries))
  {
    if |entries| > 0 {
      var rest := entries[1..];
      FilterConditionsOfFilteringEntries(rest);
      if |entries[0].values| > 0 {
        var es := [entries[0]] + FilteringEntries(rest);
        assert es[0] == entries[0] && es[1..] == FilteringEntries(rest);
      }
    }
  }

  /** A condition opens on the first excluded IRI and closes after the last. */
  lemma FilterConditionShape(e: FilterEntry)
    requires |e.values| > 0
    ensures StartsWith(FilterCondition(e), "FILTER (" + ("?" + e.variable + " != " + e.values[0]))
    ensures EndsWith(FilterCondition(e), " != " + e.values[|e.values| - 1] + ")")
  {
    var ins := Inequalities(e.variable, e.values);
    var body := Join(ins, " && ");
    StartsWithInside("FILTER (", body, ins[0], ")");
    var lastIn := ins[|ins| - 1];
    var last := e.values[|e.values| - 1];
    assert lastIn == "?" + e.variable + (" != " + last);
    SuffixOfConcat("?" + e.variable, " != " + last);
    EndsWithTrans(body, lastIn, " != " + last);
    EndsWithInside("FILTER (", body, " != " + last, ")");
  }

  // ---------------------------------------------------------------------------
  // triples_get
  // ---------------------------------------------------------------------------

  /** The two clause lists `append_bind_and_filter` appends to. */
  datatype BindsAndFilters = BindsAndFilters(binds: seq<string>, filters: seq<string>)

  /** The term is pinned by a BIND: it is an IRI or a shorthand IRI. */
  predicate IsBound(v: Value) {
    v.IsStr() && (IsIri(v.Str()) || IsShorthandIri(v.Str(), None))
  }

  /** The text a value has inside an f-string. */
  function ValueText(v: Value): string {
    match v
    case Text(s) => s
    case Lit(l) => l.lexical
    case NonText(lexical, _, _) => lexical
  }

  /** The clause `append_bind_and_filter` produces for one term. */
  function BindOrFilter(variable: string, v: Value, n3: Literal -> string): string {
    if v.IsStr() && IsIri(v.Str()) then "BIND(" + (EnsureAbsolute(v.Str()) + " AS " + variable + ")")
    else if v.IsStr() && IsShorthandIri(v.Str(), None) then "BIND(" + (v.Str() + " AS " + variable + ")")
    else if v.Lit? then "FILTER(" + ("?o=" + n3(v.lit) + ")")
    else "FILTER(" + ("CONTAINS(STR(" + variable + "), '" + ValueText(v) + "'))")
  }

  /** A bound term yields a BIND, any other a FILTER. */
  lemma BindOrFilterKind(variable: string, v: Value, n3: Literal -> string)
    ensures IsBound(v) ==> StartsWith(BindOrFilter(variable, v, n3), "BIND(")
    ensures !IsBound(v) ==> StartsWith(BindOrFilter(variable, v, n3), "FILTER(")
  {
    var c := BindOrFilter(variable, v, n3);
    if IsBound(v) {
      PrefixOfConcat("BIND(", c[5..]);
      assert c == "BIND(" + c[5..];
    } else {
      PrefixOfConcat("FILTER(", c[7..]);
      assert c == "FILTER(" + c[7..];
    }
  }

  /**
    `append_bind_and_filter`: an IRI (delimited) or a shorthand IRI becomes a BIND of
    the variable; a literal becomes an equality FILTER on `?o` through `n3`; any other
    text becomes a substring FILTER on the variable. Exactly one of the two lists
    grows, by exactly that clause.
   */
  function AppendBindAndFilter(acc: BindsAndFilters, variable: string, v: Value, n3: Literal -> string): (r: BindsAndFilters)
    ensures IsBound(v) ==> r.binds == acc.binds + [BindOrFilter(variable, v, n3)] && r.filters == acc.filters
    ensures !IsBound(v) ==> r.filters == acc.filters + [BindOrFilter(variable, v, n3)] && r.binds == acc.binds
  {
    var clause := BindOrFilter(variable, v, n3);
    if IsBound(v) then BindsAndFilters(acc.binds + [clause], acc.filters)
    else BindsAndFilters(acc.binds, acc.filters + [clause])
  }

  /** Every BIND list entry is a BIND and every FILTER list entry a FILTER. */
  predicate KindsSeparated(acc: BindsAndFilters) {
    AllStartWith(acc.binds, "BIND(") && AllStartWith(acc.filters, "FILTER(")
  }

  /** A term, optionally given, folded into the clause lists. */
  function AppendIfGiven(acc: BindsAndFilters, variable: string, v: Option<Value>, n3: Literal -> string): BindsAndFilters {
    if v.Some? then AppendBindAndFilter(acc, variable, v.value, n3) else acc
  }

  /** `triples_get` prepares a given object with `prepare_object` (no `ensure_iri`) first. */
  function PreparedObject(o: Option<Value>): Option<Value> {
    if o.Some? then Some(PrepareObject(o.value, false).value) else None
  }

  /** The BINDs and FILTERs of `triples_get`: subject, predicate, then the prepared object folded in. */
  function TriplesGetClauses(s: Option<string>, p: Option<string>, o: Option<Value>, n3: Literal -> string): BindsAndFilters {
    var subjectValue := if s.Some? then Some(Text(s.value)) else None;
    var predicateValue := if p.Some? then Some(Text(p.value)) else None;
    var acc := AppendIfGiven(BindsAndFilters([], []), "?s", subjectValue, n3);
    var acc := AppendIfGiven(acc, "?p", predicateValue, n3);
    AppendIfGiven(acc, "?o", PreparedObject(o), n3)
  }

  /** The basic graph pattern every `triples_get` query matches. */
  const TriplePattern := "?s ?p ?o ."

  /**
    The where clauses of `triples_get`: the BINDs, the `?s ?p ?o .` pattern, then the
    FILTERs; `None` when no term is given (the method returns the empty list without
    querying).
   */
  function TriplesGetWhere(s: Option<string>, p: Option<string>, o: Option<Value>, n3: Literal -> string): (r: Option<seq<string>>)
    ensures r.None? <==> s.None? && p.None? && o.None?
  {
    if s.None? && p.None? && o.None? then None
    else
      var acc := TriplesGetClauses(s, p, o, n3);
      Some(acc.binds + [TriplePattern] + acc.filters)
  }

  /** Number of given terms. */
  function GivenCount(s: Option<string>, p: Option<string>, o: Option<Value>): nat {
    (if s.Some? then 1 else 0) + (if p.Some? then 1 else 0) + (if o.Some? then 1 else 0)
  }

  /** Number of given terms that are pinned by a BIND, the object taken after preparation. */
  function BoundCount(s: Option<string>, p: Option<string>, o: Option<Value>): nat {
    (if s.Some? && IsBound(Text(s.value)) then 1 else 0)
      + (if p.Some? && IsBound(Text(p.value)) then 1 else 0)
      + (if PreparedObject(o).Some? && IsBound(PreparedObject(o).value) then 1 else 0)
  }

  /** Folding an optional term keeps BINDs and FILTERs in their own lists and grows the right one. */
  lemma AppendIfGivenCounts(acc: BindsAndFilters, variable: string, v: Option<Value>, n3: Literal -> string)
    requires KindsSeparated(acc)
    ensures var r := AppendIfGiven(acc, variable, v, n3);
      && KindsSeparated(r)
      && |r.binds| == |acc.binds| + (if v.Some? && IsBound(v.value) then 1 else 0)
      && |r.filters| == |acc.filters| + (if v.Some? && !IsBound(v.value) then 1 else 0)
  {
    if v.Some? {
      var c := BindOrFilter(variable, v.value, n3);
      BindOrFilterKind(variable, v.value, n3);
      if IsBound(v.value) {
        AllStartWithAppend(acc.binds, c, "BIND(");
      } else {
        AllStartWithAppend(acc.filters, c, "FILTER(");
      }
    }
  }

  /** The fold keeps BINDs and FILTERs in their own lists and yields one BIND per bound term and one FILTER per other given term. */
  lemma TriplesGetClausesCounts(s: Option<string>, p: Option<string>, o: Option<Value>, n3: Literal -> string)
    ensures var acc := TriplesGetClauses(s, p, o, n3);
      && KindsSeparated(acc)
      && |acc.binds| == BoundCount(s, p, o)
      && |acc.binds| + |acc.filters| == GivenCount(s, p, o)
  {
    var subjectValue := if s.Some? then Some(Text(s.value)) else None;
    var predicateValue := if p.Some? then Some(Text(p.value)) else None;
    var a0 := BindsAndFilters([], []);
    AppendIfGivenCounts(a0, "?s", subjectValue, n3);
    var a1 := AppendIfGiven(a0, "?s", subjectValue, n3);
    AppendIfGivenCounts(a1, "?p", predicateValue, n3);
    var a2 := AppendIfGiven(a1, "?p", predicateValue, n3);
    AppendIfGivenCounts(a2, "?o", PreparedObject(o), n3);
  }

  /** Separated lists around the pattern put the BINDs before it and the FILTERs after it. */
  lemma KindsSeparatedAroundPattern(acc: BindsAndFilters)
    requires KindsSeparated(acc)
    ensures var ws := acc.binds + [TriplePattern] + acc.filters;
      var k := |acc.binds|;
      && |ws| == |acc.binds| + |acc.filters| + 1
      && ws[k] == TriplePattern
      && (forall i :: 0 <= i < k ==> StartsWith(ws[i], "BIND("))
      && (forall i :: k < i < |ws| ==> StartsWith(ws[i], "FILTER("))
  {
    var ws := acc.binds + [TriplePattern] + acc.filters;
    assert forall i :: 0 <= i < |acc.binds| ==> ws[i] == acc.binds[i];
    assert forall i :: |acc.binds| < i < |ws| ==> ws[i] == acc.filters[i - |acc.binds| - 1];
  }

  /**
    Every given term contributes exactly one clause: the where clauses are the BINDs
    of the bound terms, then the `?s ?p ?o .` pattern, then the FILTERs of the rest.
   */
  lemma TriplesGetWhereShape(s: Option<string>, p: Option<string>, o: Option<Value>, n3: Literal -> string)
    requires s.Some? || p.Some? || o.Some?
    ensures var ws := TriplesGetWhere(s, p, o, n3).value;
      var k := BoundCount(s, p, o);
      && |ws| == GivenCount(s, p, o) + 1
      && ws[k] == TriplePattern
      && (forall i :: 0 <= i < k ==> StartsWith(ws[i], "BIND("))
      && (forall i :: k < i < |ws| ==> StartsWith(ws[i], "FILTER("))
  {
    TriplesGetClausesCounts(s, p, o, n3);
    KindsSeparatedAroundPattern(TriplesGetClauses(s, p, o, n3));
  }

  /** The clause for an IRI given as text: a BIND of its delimited form. */
  lemma BindOfIri(variable: string, iri: string, n3: Literal -> string)
    requires IsIri(iri)
    ensures IsBound(Text(iri))
    ensures BindOrFilter(variable, Text(iri), n3) == "BIND(" + (EnsureAbsolute(iri) + " AS " + variable + ")")
  {
  }

  /** The clause for text that is neither IRI nor shorthand: a substring FILTER. */
  lemma FilterOfText(variable: string, text: string, n3: Literal -> string)
    requires !IsIri(text) && !IsShorthandIri(text, None)
    ensures !IsBound(Text(text))
    ensures BindOrFilter(variable, Text(text), n3) == "FILTER(" + ("CONTAINS(STR(" + variable + "), '" + text + "'))")
  {
  }

  /** A subject given as an IRI is pinned by the first BIND, of its delimited form. */
  lemma TriplesGetBindsIri(s: string, p: Option<string>, o: Option<Value>, n3: Literal -> string)
    requires IsIri(s)
    ensures var acc := TriplesGetClauses(Some(s), p, o, n3);
      && |acc.binds| > 0
      && acc.binds[0] == "BIND(" + (EnsureAbsolute(s) + " AS " + "?s" + ")")
  {
    BindOfIri("?s", s, n3);
    var a1 := AppendIfGiven(BindsAndFilters([], []), "?s", Some(Text(s)), n3);
    var predicateValue := if p.Some? then Some(Text(p.value)) else None;
    AppendIfGivenPrefix(a1, "?p", predicateValue, n3);
    var a2 := AppendIfGiven(a1, "?p", predicateValue, n3);
    AppendIfGivenPrefix(a2, "?o", PreparedObject(o), n3);
    var a3 := AppendIfGiven(a2, "?o", PreparedObject(o), n3);
    assert TriplesGetClauses(Some(s), p, o, n3) == a3;
  }

  /** A plain-text subject that is neither IRI nor shorthand becomes the first substring FILTER, on `?s`. */
  lemma TriplesGetFiltersText(s: string, p: Option<string>, o: Option<Value>, n3: Literal -> string)
    requires !IsIri(s) && !IsShorthandIri(s, None)
    ensures var acc := TriplesGetClauses(Some(s), p, o, n3);
      && |acc.filters| > 0
      && acc.filters[0] == "FILTER(" + ("CONTAINS(STR(" + "?s" + "), '" + s + "'))")
  {
    FilterOfText("?s", s, n3);
    var a1 := AppendIfGiven(BindsAndFilters([], []), "?s", Some(Text(s)), n3);
    var predicateValue := if p.Some? then Some(Text(p.value)) else None;
    AppendIfGivenPrefix(a1, "?p", predicateValue, n3);
    var a2 := AppendIfGiven(a1, "?p", predicateValue, n3);
    AppendIfGivenPrefix(a2, "?o", PreparedObject(o), n3);
  }

  /** Folding a term in only appends: what the lists held before stays at the front. */
  lemma AppendIfGivenPrefix(acc: BindsAndFilters, variable: string, v: Option<Value>, n3: Literal -> string)
    ensures var r := AppendIfGiven(acc, variable, v, n3);
      && |acc.binds| <= |r.binds| && r.binds[..|acc.binds|] == acc.binds
      && |acc.filters| <= |r.filters| && r.filters[..|acc.filters|] == acc.filters
      && (|acc.binds| > 0 ==> r.binds[0] == acc.binds[0])
      && (|acc.filters| > 0 ==> r.filters[0] == acc.filters[0])
  {
    if v.Some? {
      var c := BindOrFilter(variable, v.value, n3);
      if IsBound(v.value) {
        assert (acc.binds + [c])[..|acc.binds|] == acc.binds;
      } else {
        assert (acc.filters + [c])[..|acc.filters|] == acc.filters;
      }
    }
  }

  /** The query object `triples_get` builds around its where clauses. */
  function TriplesGetSelect(ws: seq<string>, includeExplicit: bool, includeImplicit: bool,
                            ng: Option<string>, prefixes: Option<PrefixMap>): (q: SparqlQuery)
    ensures q.namedGraph == ng && q.prefixes == prefixes
    ensures q.includeExplicit == includeExplicit && q.includeImplicit == includeImplicit
    ensures |q.blocks| == 1 && q.blocks[0].kind == Select
    ensures q.blocks[0].data == SelectBlockData(q, ["?s", "?p", "?o"], ws)
  {
    AddSelectBlock(NewQuery(ng, prefixes, includeExplicit, includeImplicit), ["?s", "?p", "?o"], ws)
  }

  /**
    The SELECT block of `triples_get` projects `?s ?p ?o` on its first line and reads
    back as exactly the where clauses it was given.
   */
  lemma TriplesGetSelectRoundTrip(ws: seq<string>, includeExplicit: bool, includeImplicit: bool,
                                  ng: Option<string>, prefixes: Option<PrefixMap>)
    requires WellFormedClauses(ws)
    requires NamedGraphSet(ng) ==> '\n' !in ng.value
    ensures var q := TriplesGetSelect(ws, includeExplicit, includeImplicit, ng, prefixes);
      && Split(q.blocks[0].data, '\n')[0] == "SELECT ?s ?p ?o"
      && DecodeSelectWhere(q, q.blocks[0].data) == Some(ws)
  {
    var q := TriplesGetSelect(ws, includeExplicit, includeImplicit, ng, prefixes);
    var vars := ["?s", "?p", "?o"];
    assert forall i :: 0 <= i < |vars| ==> '\n' !in vars[i] by {
      assert vars[0] == "?s" && vars[1] == "?p" && vars[2] == "?o";
    }
    assert Split(q.blocks[0].data, '\n')[0] == "SELECT ?s ?p ?o" by {
      SelectBlockLines(q, vars, ws);
      ProjectionText();
    }
    assert DecodeSelectWhere(q, q.blocks[0].data) == Some(ws) by {
      SelectBlockRoundTrip(q, vars, ws);
    }
  }

  /**
    The SELECT query `triples_get` dispatches: `None` when no term is given, and
    otherwise the rendered query exactly when the read validator accepts it.
   */
  function TriplesGetQuery(s: Option<string>, p: Option<string>, o: Option<Value>, includeExplicit: bool, includeImplicit: bool,
                           ng: Option<string>, prefixes: Option<PrefixMap>, n3: Literal -> string,
                           readValid: string -> bool, updateValid: string -> bool): (r: Option<string>)
    ensures TriplesGetWhere(s, p, o, n3).None? ==> r.None?
    ensures TriplesGetWhere(s, p, o, n3).Some? ==>
      var text := QueryText(TriplesGetSelect(TriplesGetWhere(s, p, o, n3).value, includeExplicit, includeImplicit, ng, prefixes));
      (r.Some? <==> readValid(text)) && (r.Some? ==> r.value == text)
  {
    match TriplesGetWhere(s, p, o, n3)
    case None => None
    case Some(ws) =>
      var q := TriplesGetSelect(ws, includeExplicit, includeImplicit, ng, prefixes);
      match ToString(q, true, readValid, updateValid)
      case Rendered(text) => Some(text)
      case _ => None
  }

  /** The query opens with the PREFIX preamble when prefixes are given, and otherwise with the projection of all three variables. */
  lemma TriplesGetSelectText(ws: seq<string>, includeExplicit: bool, includeImplicit: bool,
                             ng: Option<string>, prefixes: Option<PrefixMap>)
    ensures var text := QueryText(TriplesGetSelect(ws, includeExplicit, includeImplicit, ng, prefixes));
      StartsWith(text, if PrefixesGiven(prefixes) then PrefixString(prefixes.value) else "SELECT ?s ?p ?o")
  {
    var q := TriplesGetSelect(ws, includeExplicit, includeImplicit, ng, prefixes);
    if !PrefixesGiven(prefixes) {
      SingleBlockText(q);
      ProjectionText();
    }
  }

  /** The projection `triples_get` asks for. */
  lemma ProjectionText()
    ensures "SELECT " + VariableString(["?s", "?p", "?o"]) == "SELECT ?s ?p ?o"
  {
    JoinThree("?s", "?p", "?o", " ");
  }

  // ---------------------------------------------------------------------------
  // triple_update
  // ---------------------------------------------------------------------------

  /** Python truthiness of an optional term: given and not empty (or, for a literal, truthy). */
  predicate GivenValue(v: Option<Value>) {
    v.Some? && match v.value
      case Text(s) => s != ""
      case Lit(l) => l.truthy
      case NonText(_, _, truthy) => truthy
  }

  /** Python truthiness of an optional string. */
  predicate Given(s: Option<string>) {
    s.Some? && s.value != ""
  }

  /**
    `prepare_object(v, as_string=True)` as a triple term: an IRI is delimited, a
    shorthand IRI is kept, and anything else is rendered by the literal library
    (`renderLiteral`: escaping, `to_literal` and `n3`).
   */
  function ObjectTerm(v: Value, renderLiteral: Value -> string): (r: string)
    ensures v.IsStr() && IsIri(v.Str()) ==> r == EnsureAbsolute(v.Str())
    ensures v.IsStr() && !IsIri(v.Str()) && IsShorthandIri(v.Str(), None) ==> r == v.Str()
    ensures !IsBound(v) ==> r == renderLiteral(v)
  {
    if v.IsStr() && IsIri(v.Str()) then EnsureAbsolute(v.Str())
    else if v.IsStr() && IsShorthandIri(v.Str(), None) then v.Str()
    else renderLiteral(v)
  }

  /**
    `bool()` of `prepare_object(v, as_string=True)`. A shorthand IRI given as a
    `Literal` comes back as that `Literal`, so its own truthiness decides; every
    other value comes back as a `str`, which is truthy when non-empty.
   */
  predicate ObjectTermTruthy(v: Value, renderLiteral: Value -> string) {
    if v.Lit? && !IsIri(v.Str()) && IsShorthandIri(v.Str(), None) then v.lit.truthy
    else ObjectTerm(v, renderLiteral) != ""
  }

  /**
    Which prepared objects count as given: an IRI and a plain-`str` shorthand always,
    a shorthand `Literal` exactly when the literal is truthy, and a rendered literal
    exactly when its text is non-empty.
   */
  lemma ObjectTermTruthyCases(v: Value, renderLiteral: Value -> string)
    ensures v.IsStr() && IsIri(v.Str()) ==> ObjectTermTruthy(v, renderLiteral)
    ensures v.Text? && IsShorthandIri(v.text, None) ==> ObjectTermTruthy(v, renderLiteral)
    ensures v.Lit? && IsShorthandIri(v.Str(), None) ==> (ObjectTermTruthy(v, renderLiteral) <==> v.lit.truthy)
    ensures !IsBound(v) ==> (ObjectTermTruthy(v, renderLiteral) <==> renderLiteral(v) != "")
    ensures ObjectTermTruthy(v, renderLiteral) ==> ObjectTerm(v, renderLiteral) != ""
  {
  }

  /**
    A falsy shorthand `Literal` as the only new part (`Literal("ex:a",
    datatype=XSD.boolean)`, say) replaces nothing: the old triple is inserted again.
   */
  lemma FalsyShorthandKeepsOldObject(previous: Triple, l: Literal, renderLiteral: Value -> string)
    requires !l.truthy && IsShorthandIri(l.lexical, None)
    ensures PrepareNew(previous, None, None, Some(Lit(l)), renderLiteral) == Ok(previous)
  {
  }

  /**
    The replacement triple: in each position the new term when it is given and
    non-empty, and the old term otherwise.
   */
  function Replacement(previous: Triple, newS: Option<string>, newP: Option<string>, newO: Option<string>): (r: Triple)
    ensures r.s == (if Given(newS) then newS.value else previous.s)
    ensures r.p == (if Given(newP) then newP.value else previous.p)
    ensures r.o == (if Given(newO) then newO.value else previous.o)
  {
    Triple(if Given(newS) then newS.value else previous.s,
           if Given(newP) then newP.value else previous.p,
           if Given(newO) then newO.value else previous.o)
  }

  /** Why `triple_update` returned false before dispatching anything. */
  datatype SkipReason = MissingOldPart | NoNewPart | OldTripleAbsent | InvalidUpdate

  /** The outcome of `triple_update` up to dispatch. */
  datatype UpdateOutcome =
    | Skipped(reason: SkipReason)
    | Raised(error: Error)
    | UpdateQuery(deleted: Triple, inserted: Triple, query: SparqlQuery, text: string)

  /** A term prepared as a subject or predicate, if given. */
  function PrepareIfGiven(t: Option<string>): Result<Option<string>> {
    if t.None? then Ok(None)
    else match PrepareSubjectOrPredicate(t.value, true)
      case Ok(x) => Ok(Some(x))
      case Err(e) => Err(e)
  }

  /** The query object `triple_update` builds: delete the old triple, insert the replacement, match the old triple. */
  function UpdateQueryOf(deleted: Triple, inserted: Triple, ng: Option<string>, prefixes: Option<PrefixMap>): (q: SparqlQuery)
    ensures q.namedGraph == ng && q.prefixes == prefixes
    ensures |q.blocks| == 1 && q.blocks[0].kind == DeleteInsert
    ensures q.blocks[0].data == DeleteInsertBlockData(NewQuery(ng, prefixes, true, true), [deleted], [inserted], [TripleLine(deleted)])
  {
    AddDeleteInsertBlock(NewQuery(ng, prefixes, true, true), [deleted], [inserted], [TripleLine(deleted)])
  }

  /** The last step of `triple_update`: render the query, validated as an update, or give up when the validator rejects it. */
  function BuildUpdate(deleted: Triple, inserted: Triple, ng: Option<string>, prefixes: Option<PrefixMap>,
                       readValid: string -> bool, updateValid: string -> bool): (r: UpdateOutcome)
    ensures var q := UpdateQueryOf(deleted, inserted, ng, prefixes);
      && (r.UpdateQuery? <==> updateValid(QueryText(q)))
      && (r.UpdateQuery? ==> r == UpdateQuery(deleted, inserted, q, QueryText(q)))
      && (!r.UpdateQuery? ==> r == Skipped(InvalidUpdate))
  {
    var q := UpdateQueryOf(deleted, inserted, ng, prefixes);
    match ToString(q, true, readValid, updateValid)
    case Rendered(text) => UpdateQuery(deleted, inserted, q, text)
    case _ => Skipped(InvalidUpdate)
  }

  /**
    The old triple as `triple_update` prepares it: subject and predicate through
    `prepare_subject_or_predicate` with `ensure_iri` (either may raise), the object
    as a triple term.
   */
  function PrepareOld(oldS: string, oldP: string, oldO: Value, renderLiteral: Value -> string): (r: Result<Triple>)
    ensures r.Ok? <==> PrepareSubjectOrPredicate(oldS, true).Ok? && PrepareSubjectOrPredicate(oldP, true).Ok?
    ensures r.Err? ==> r.error == InvalidIriError(SubjectOrPredicateNotAnIri)
    ensures r.Ok? ==>
      && PrepareSubjectOrPredicate(oldS, true) == Ok(r.value.s)
      && PrepareSubjectOrPredicate(oldP, true) == Ok(r.value.p)
      && r.value.o == ObjectTerm(oldO, renderLiteral)
  {
    var s0 := PrepareSubjectOrPredicate(oldS, true);
    if s0.Err? then Err(s0.error)
    else
      var p0 := PrepareSubjectOrPredicate(oldP, true);
      if p0.Err? then Err(p0.error)
      else Ok(Triple(s0.value, p0.value, ObjectTerm(oldO, renderLiteral)))
  }

  /**
    The replacement `triple_update` inserts: each given new subject or predicate
    prepared with `ensure_iri` (either may raise) and taken, a given new object taken
    when its prepared value is truthy, and the old term everywhere else.
   */
  function PrepareNew(previous: Triple, newS: Option<string>, newP: Option<string>, newO: Option<Value>,
                      renderLiteral: Value -> string): (r: Result<Triple>)
    ensures r.Err? ==> r.error == InvalidIriError(SubjectOrPredicateNotAnIri)
    ensures r.Err? <==>
      || (newS.Some? && PrepareSubjectOrPredicate(newS.value, true).Err?)
      || (newP.Some? && PrepareSubjectOrPredicate(newP.value, true).Err?)
    ensures r.Ok? ==>
      && (newS.Some? ==> PrepareSubjectOrPredicate(newS.value, true) == Ok(r.value.s))
      && (newS.None? ==> r.value.s == previous.s)
      && (newP.Some? ==> PrepareSubjectOrPredicate(newP.value, true) == Ok(r.value.p))
      && (newP.None? ==> r.value.p == previous.p)
      && r.value.o == (if newO.Some? && ObjectTermTruthy(newO.value, renderLiteral) then ObjectTerm(newO.value, renderLiteral) else previous.o)
  {
    var s1 := PrepareIfGiven(newS);
    if s1.Err? then Err(s1.error)
    else
      var p1 := PrepareIfGiven(newP);
      if p1.Err? then Err(p1.error)
      else
        PreparedTermsGiven(newS, s1.value);
        PreparedTermsGiven(newP, p1.value);
        Ok(Replacement(previous, s1.value, p1.value, NewObjectTerm(newO, renderLiteral)))
  }

  /** The new object as `triple_update` keeps it: its prepared term, when given and truthy. */
  function NewObjectTerm(newO: Option<Value>, renderLiteral: Value -> string): (r: Option<string>)
    ensures Given(r) <==> newO.Some? && ObjectTermTruthy(newO.value, renderLiteral)
    ensures Given(r) ==> r.value == ObjectTerm(newO.value, renderLiteral)
  {
    if newO.Some? && ObjectTermTruthy(newO.value, renderLiteral) then
      ObjectTermTruthyCases(newO.value, renderLiteral);
      Some(ObjectTerm(newO.value, renderLiteral))
    else None
  }

  /** The two early returns of `triple_update` pass: every old part is truthy and some new part is given. */
  predicate UpdateGates(oldS: Option<string>, oldP: Option<string>, oldO: Option<Value>,
                        newS: Option<string>, newP: Option<string>, newO: Option<Value>) {
    Given(oldS) && Given(oldP) && GivenValue(oldO) && !(newS.None? && newP.None? && newO.None?)
  }

  /**
    `triple_update` up to dispatch. It gives up when an old part is missing or no
    new part is given; prepares the old terms (an invalid subject or predicate
    raises); when `checkExist` is set, gives up if `oldExists` -- the answer of the
    existence query -- is false; prepares the given new terms; and builds one
    DELETE/INSERT block deleting the old triple, inserting the replacement and
    matching the old triple, validated as an update.
   */
  function TripleUpdate(oldS: Option<string>, oldP: Option<string>, oldO: Option<Value>,
                        newS: Option<string>, newP: Option<string>, newO: Option<Value>,
                        checkExist: bool, oldExists: bool,
                        ng: Option<string>, prefixes: Option<PrefixMap>, renderLiteral: Value -> string,
                        readValid: string -> bool, updateValid: string -> bool): (r: UpdateOutcome)
    ensures r == Skipped(MissingOldPart) <==> !(Given(oldS) && Given(oldP) && GivenValue(oldO))
    ensures r == Skipped(NoNewPart) <==>
      Given(oldS) && Given(oldP) && GivenValue(oldO) && newS.None? && newP.None? && newO.None?
    ensures r == Skipped(OldTripleAbsent) <==>
      && UpdateGates(oldS, oldP, oldO, newS, newP, newO)
      && PrepareOld(oldS.value, oldP.value, oldO.value, renderLiteral).Ok?
      && checkExist && !oldExists
    ensures r.Raised? ==> r.error == InvalidIriError(SubjectOrPredicateNotAnIri)
    ensures r.Raised? <==>
      && UpdateGates(oldS, oldP, oldO, newS, newP, newO)
      && var prior := PrepareOld(oldS.value, oldP.value, oldO.value, renderLiteral);
      || prior.Err?
      || (!(checkExist && !oldExists) && PrepareNew(prior.value, newS, newP, newO, renderLiteral).Err?)
    ensures r.UpdateQuery? <==>
      && UpdateGates(oldS, oldP, oldO, newS, newP, newO)
      && var prior := PrepareOld(oldS.value, oldP.value, oldO.value, renderLiteral);
      && prior.Ok?
      && (checkExist ==> oldExists)
      && var inserted := PrepareNew(prior.value, newS, newP, newO, renderLiteral);
      && inserted.Ok?
      && updateValid(QueryText(UpdateQueryOf(prior.value, inserted.value, ng, prefixes)))
    ensures r.UpdateQuery? ==>
      && (checkExist ==> oldExists)
      && PrepareOld(oldS.value, oldP.value, oldO.value, renderLiteral) == Ok(r.deleted)
      && PrepareNew(r.deleted, newS, newP, newO, renderLiteral) == Ok(r.inserted)
      && r.query == UpdateQueryOf(r.deleted, r.inserted, ng, prefixes)
      && r.text == QueryText(r.query) && updateValid(r.text)
  {
    if !(Given(oldS) && Given(oldP) && GivenValue(oldO)) then Skipped(MissingOldPart)
    else if newS.None? && newP.None? && newO.None? then Skipped(NoNewPart)
    else
      var deleted := PrepareOld(oldS.value, oldP.value, oldO.value, renderLiteral);
      if deleted.Err? then Raised(deleted.error)
      else UpdateFromOld(deleted.value, newS, newP, newO, checkExist, oldExists, ng, prefixes, renderLiteral, readValid, updateValid)
  }

  /**
    `triple_update` once the old triple is prepared: the existence check, then the
    new terms, then the update.
   */
  function UpdateFromOld(deleted: Triple, newS: Option<string>, newP: Option<string>, newO: Option<Value>,
                         checkExist: bool, oldExists: bool,
                         ng: Option<string>, prefixes: Option<PrefixMap>, renderLiteral: Value -> string,
                         readValid: string -> bool, updateValid: string -> bool): (r: UpdateOutcome)
    ensures r != Skipped(MissingOldPart) && r != Skipped(NoNewPart)
    ensures r == Skipped(OldTripleAbsent) <==> checkExist && !oldExists
    ensures r.Raised? ==> r.error == InvalidIriError(SubjectOrPredicateNotAnIri)
    ensures r.Raised? <==> !(checkExist && !oldExists) && PrepareNew(deleted, newS, newP, newO, renderLiteral).Err?
    ensures r.UpdateQuery? <==>
      && !(checkExist && !oldExists)
      && PrepareNew(deleted, newS, newP, newO, renderLiteral).Ok?
      && updateValid(QueryText(UpdateQueryOf(deleted, PrepareNew(deleted, newS, newP, newO, renderLiteral).value, ng, prefixes)))
    ensures r.UpdateQuery? ==>
      && (checkExist ==> oldExists)
      && r.deleted == deleted
      && PrepareNew(deleted, newS, newP, newO, renderLiteral) == Ok(r.inserted)
      && r.query == UpdateQueryOf(r.deleted, r.inserted, ng, prefixes)
      && r.text == QueryText(r.query) && updateValid(r.text)
  {
    if checkExist && !oldExists then Skipped(OldTripleAbsent)
    else
      var inserted := PrepareNew(deleted, newS, newP, newO, renderLiteral);
      if inserted.Err? then Raised(inserted.error)
      else BuildUpdate(deleted, inserted.value, ng, prefixes, readValid, updateValid)
  }

  /** A prepared subject or predicate is never empty, so the replacement takes every given new term. */
  lemma PreparedTermsGiven(t: Option<string>, prepared: Option<string>)
    requires PrepareIfGiven(t) == Ok(prepared)
    ensures t.Some? <==> Given(prepared)
    ensures t.Some? ==> PrepareSubjectOrPredicate(t.value, true) == Ok(prepared.value)
  {
    if t.Some? && !IsIri(t.value) {
      ShorthandIriIff(t.value, None);
    }
  }

  /**
    The update `triple_update` builds reads back as deleting exactly the old triple,
    inserting exactly the replacement and matching the old triple, whenever the
    prepared terms are free of spaces, line breaks and braces.
   */
  lemma UpdateQueryRoundTrip(deleted: Triple, inserted: Triple, ng: Option<string>, prefixes: Option<PrefixMap>)
    requires GroupSafeTriples([deleted]) && GroupSafeTriples([inserted])
    ensures DecodeDeleteInsert(ng, UpdateQueryOf(deleted, inserted, ng, prefixes).blocks[0].data)
      == Some(([deleted], [inserted], [TripleLine(deleted)]))
  {
    assert WellFormedTriple(deleted) && '}' !in deleted.s && '}' !in deleted.p && '}' !in deleted.o by {
      assert [deleted][0] == deleted;
    }
    TripleLineKeepsAbsent(deleted, '\n');
    TripleLineKeepsAbsent(deleted, '}');
    DeleteInsertRoundTrip(NewQuery(ng, prefixes, true, true), [deleted], [inserted], [TripleLine(deleted)]);
  }

  /** The query of a successful `triple_update` reads back as deleting the old triple and inserting the replacement. */
  lemma TripleUpdateRoundTrip(oldS: Option<string>, oldP: Option<string>, oldO: Option<Value>,
                              newS: Option<string>, newP: Option<string>, newO: Option<Value>,
                              checkExist: bool, oldExists: bool,
                              ng: Option<string>, prefixes: Option<PrefixMap>, renderLiteral: Value -> string,
                              readValid: string -> bool, updateValid: string -> bool)
    requires var r := TripleUpdate(oldS, oldP, oldO, newS, newP, newO, checkExist, oldExists, ng, prefixes, renderLiteral, readValid, updateValid);
      r.UpdateQuery? && GroupSafeTriples([r.deleted]) && GroupSafeTriples([r.inserted])
    ensures var r := TripleUpdate(oldS, oldP, oldO, newS, newP, newO, checkExist, oldExists, ng, prefixes, renderLiteral, readValid, updateValid);
      DecodeDeleteInsert(ng, r.query.blocks[0].data) == Some(([r.deleted], [r.inserted], [TripleLine(r.deleted)]))
  {
    var r := TripleUpdate(oldS, oldP, oldO, newS, newP, newO, checkExist, oldExists, ng, prefixes, renderLiteral, readValid, updateValid);
    UpdateQueryRoundTrip(r.deleted, r.inserted, ng, prefixes);
  }
}

=== FILE: query_builder.dfy ===
/**
  The `SPARQLQuery` block builder of `graph_db_interface/graph_db_interface.py`: a
  query is configuration (named graph, prefixes, explicit/implicit flags) plus an
  ordered list of typed blocks; each `add_*_block` appends one rendered block and
  `to_string` joins a PREFIX preamble and the blocks, then gates the text through a
  read or an update validator.

  Each renderer is paired with a reader that takes the rendered text apart again,
  and the round trip is proved for well-formed inputs.
 */
module QueryBuilder {
  import opened Wrappers
  import opened Strings
  import opened Utils

  // ---------------------------------------------------------------------------
  // Data model
  // ---------------------------------------------------------------------------

  /** `SPARQLQueryType` */
  datatype QueryType =
    | Select | SelectDistinct | SelectReduced | Construct | Describe | Ask
    | InsertData | DeleteData | DeleteInsert

  /** Kinds `to_string` hands to the read validator. */
  predicate IsReadType(t: QueryType) {
    t == Select || t == SelectDistinct || t == SelectReduced || t == Ask
  }

  /** Kinds `to_string` hands to the update validator. */
  predicate IsUpdateType(t: QueryType) {
    t == InsertData || t == DeleteData || t == DeleteInsert
  }

  /** One entry of `_query_blocks`: `{"type": kind, "data": text}`. */
  datatype Block = Block(kind: QueryType, data: string)

  /** A triple of already prepared terms, as the `(s, p, o)` tuples the builder receives. */
  datatype Triple = Triple(s: string, p: string, o: string)

  /** A `SPARQLQuery` instance: its constructor arguments and the blocks added so far. */
  datatype SparqlQuery = SparqlQuery(
    namedGraph: Option<string>,
    prefixes: Option<PrefixMap>,
    includeExplicit: bool,
    includeImplicit: bool,
    blocks: seq<Block>)

  /** `SPARQLQuery(named_graph, prefixes, include_explicit, include_implicit)`: no blocks yet. */
  function NewQuery(ng: Option<string>, prefixes: Option<PrefixMap>, includeExplicit: bool, includeImplicit: bool): (q: SparqlQuery)
    ensures q.blocks == []
    ensures q.namedGraph == ng && q.prefixes == prefixes
    ensures q.includeExplicit == includeExplicit && q.includeImplicit == includeImplicit
  {
    SparqlQuery(ng, prefixes, includeExplicit, includeImplicit, [])
  }

  // ---------------------------------------------------------------------------
  // Fragments
  // ---------------------------------------------------------------------------

  /** `f"{s} {p} {o} ."` */
  function TripleLine(t: Triple): string {
    t.s + " " + t.p + " " + t.o + " ."
  }

  /** The rendered lines of a triple list, in order. */
  function TripleLines(ts: seq<Triple>): (r: seq<string>)
    ensures |r| == |ts|
    ensures forall i :: 0 <= i < |ts| ==> r[i] == TripleLine(ts[i])
  {
    if |ts| == 0 then [] else [TripleLine(ts[0])] + TripleLines(ts[1..])
  }

  /** `"\n".join(f"{s} {p} {o} ." for triple in triples)` */
  function TriplesText(ts: seq<Triple>): string {
    Join(TripleLines(ts), "\n")
  }

  /** `_create_variable_string`: the variables separated by spaces, or `*` when there are none. */
  function VariableString(vars: seq<string>): (r: string)
    ensures |vars| == 0 ==> r == "*"
    ensures |vars| > 0 ==> StartsWith(r, vars[0]) && EndsWith(r, vars[|vars| - 1])
  {
    if |vars| > 0 then Join(vars, " ") else "*"
  }

  /** `_combine_where_clauses`: the clauses one per line, or the empty string. */
  function CombineWhereClauses(ws: seq<string>): (r: string)
    ensures |ws| == 0 ==> r == ""
    ensures |ws| > 0 ==> StartsWith(r, ws[0]) && EndsWith(r, ws[|ws| - 1])
  {
    if |ws| >= 1 then Join(ws, "\n") else ""
  }

  /** `_add_explicit_implicit`: a `FROM onto:...` line when exactly one of the two flags is set. */
  function ExplicitImplicitClause(includeExplicit: bool, includeImplicit: bool): (r: Option<string>)
    ensures r == Some("FROM onto:explicit") <==> includeExplicit && !includeImplicit
    ensures r == Some("FROM onto:implicit") <==> includeImplicit && !includeExplicit
    ensures r == None <==> includeExplicit == includeImplicit
  {
    if includeExplicit && !includeImplicit then Some("FROM onto:explicit")
    else if includeImplicit && !includeExplicit then Some("FROM onto:implicit")
    else None
  }

  /** `f"PREFIX {prefix}: {iri}"` */
  function PrefixLine(p: Prefix): string {
    "PREFIX " + p.name + ": " + p.iri
  }

  /** The PREFIX lines of a prefix dictionary, in its order. */
  function PrefixLines(pm: PrefixMap): (r: seq<string>)
    ensures |r| == |pm|
    ensures forall i :: 0 <= i < |pm| ==> r[i] == PrefixLine(pm[i])
  {
    if |pm| == 0 then [] else [PrefixLine(pm[0])] + PrefixLines(pm[1..])
  }

  /** `_get_prefix_string`: one PREFIX line per entry, newline-separated, with a trailing newline. */
  function PrefixString(pm: PrefixMap): (r: string)
    ensures EndsWith(r, "\n")
    ensures |pm| > 0 ==> StartsWith(r, PrefixLine(pm[0]))
  {
    var body := Join(PrefixLines(pm), "\n");
    assert (body + "\n")[..|body|] == body;
    body + "\n"
  }

  // ---------------------------------------------------------------------------
  // Readers for the fragments
  // ---------------------------------------------------------------------------

  /** Terms that render and read back unambiguously: no spaces and no line breaks. */
  predicate WellFormedTriple(t: Triple) {
    && ' ' !in t.s && ' ' !in t.p && ' ' !in t.o
    && '\n' !in t.s && '\n' !in t.p && '\n' !in t.o
  }

  /** Reads one `s p o .` line. */
  function ParseTripleLine(line: string): Option<Triple> {
    var words := Split(line, ' ');
    if |words| == 4 && words[3] == "." then Some(Triple(words[0], words[1], words[2])) else None
  }

  /** Reads every line with `parse`; `None` as soon as one line does not read. */
  function ParseAll<T>(lines: seq<string>, parse: string -> Option<T>): (r: Option<seq<T>>)
    ensures r.Some? ==> |r.value| == |lines|
  {
    if |lines| == 0 then Some([])
    else match parse(lines[0])
      case None => None
      case Some(x) =>
        match ParseAll(lines[1..], parse)
        case None => None
        case Some(rest) => Some([x] + rest)
  }

  /** Lines that each read as the element in the same place read as the whole list. */
  lemma {:induction false} ParseAllEach<T>(lines: seq<string>, parse: string -> Option<T>, xs: seq<T>)
    requires |lines| == |xs|
    requires forall i :: 0 <= i < |lines| ==> parse(lines[i]) == Some(xs[i])
    ensures ParseAll(lines, parse) == Some(xs)
  {
    if |lines| > 0 {
      ParseAllEach(lines[1..], parse, xs[1..]);
      assert xs == [xs[0]] + xs[1..];
    }
  }

  /** Reads a list of `s p o .` lines; `None` as soon as one does not read. */
  function ParseTripleLines(lines: seq<string>): Option<seq<Triple>> {
    ParseAll(lines, ParseTripleLine)
  }

  /** Reads the text of a triple list; the empty text is the empty list. */
  function ParseTriples(text: string): Option<seq<Triple>> {
    if text == "" then Some([]) else ParseTripleLines(Split(text, '\n'))
  }

  /** Prefix entries that read back: a name without `:` or line break, an IRI without line break. */
  predicate WellFormedPrefix(p: Prefix) {
    ':' !in p.name && '\n' !in p.name && '\n' !in p.iri
  }

  /** Reads one `PREFIX name: iri` line. */
  function ParsePrefixLine(line: string): Option<Prefix> {
    if StartsWith(line, "PREFIX ") then
      var rest := line[7..];
      if ':' in rest && StartsWith(TextAfter(rest, ':'), " ")
      then Some(Prefix(TextBefore(rest, ':'), TextAfter(rest, ':')[1..]))
      else None
    else None
  }

  /** Reads a list of PREFIX lines; `None` as soon as one does not read. */
  function ParsePrefixLines(lines: seq<string>): Option<PrefixMap> {
    ParseAll(lines, ParsePrefixLine)
  }

  /** Reads a PREFIX preamble: lines ending in a newline. */
  function ParsePrefixString(text: string): Option<PrefixMap> {
    var lines := Split(text, '\n');
    if lines[|lines| - 1] == "" then ParsePrefixLines(lines[..|lines| - 1]) else None
  }

  // ---------------------------------------------------------------------------
  // Blocks
  // ---------------------------------------------------------------------------

  /** A line that is present or absent. */
  function OptionalLine(line: Option<string>): seq<string> {
    if line.Some? then [line.value] else []
  }

  /** The `FROM <g>` line of a SELECT block, when a named graph is set. */
  function FromClause(ng: Option<string>): Option<string> {
    if NamedGraphSet(ng) then Some("FROM " + EnsureAbsolute(ng.value)) else None
  }

  /** The lines of a SELECT block, before joining. */
  function SelectBlockParts(q: SparqlQuery, vars: seq<string>, ws: seq<string>): seq<string> {
    SelectHeader(q, vars) + ["WHERE {" + CombineWhereClauses(ws) + "}"]
  }

  /**
    The text `add_select_block` stores: a `SELECT` line with the variables (or `*`),
    then the dataset clause `FROM <g>` of the named graph (section 13.2 of the SPARQL
    1.1 Query Language), then the explicit/implicit `FROM` line, and the `WHERE`
    group last.
   */
  function SelectBlockData(q: SparqlQuery, vars: seq<string>, ws: seq<string>): (r: string)
    ensures StartsWith(r, "SELECT " + VariableString(vars))
    ensures EndsWith(r, "WHERE {" + CombineWhereClauses(ws) + "}")
  {
    var parts := SelectBlockParts(q, vars, ws);
    Join(parts, "\n")
  }

  /** The number of lines a SELECT block of `q` puts before its `WHERE` group. */
  function SelectHeaderCount(q: SparqlQuery): nat {
    1 + |OptionalLine(FromClause(q.namedGraph))| + |OptionalLine(ExplicitImplicitClause(q.includeExplicit, q.includeImplicit))|
  }

  /** The text after the header lines of a SELECT block of `q`. */
  function SelectWhereGroup(q: SparqlQuery, text: string): Option<string> {
    var lines := Split(text, '\n');
    var k := SelectHeaderCount(q);
    if |lines| <= k then None else Some(Join(lines[k..], "\n"))
  }

  /** Reads the where clauses back out of a `WHERE {...}` group. */
  function ParseWhereGroup(group: string): Option<seq<string>> {
    if |group| >= 8 && StartsWith(group, "WHERE {") && EndsWith(group, "}")
    then Some(ParseWhereClauses(group[7..|group| - 1]))
    else None
  }

  /**
    Reads the where clauses back out of a SELECT block built with the settings of
    `q`: past the header lines, the rest of the text is the `WHERE {...}` group.
   */
  function DecodeSelectWhere(q: SparqlQuery, text: string): Option<seq<string>> {
    match SelectWhereGroup(q, text)
    case None => None
    case Some(group) => ParseWhereGroup(group)
  }

  /** The text before the WHERE content of an ASK block. */
  const AskOpening: string := "\nASK WHERE {\n    "

  /** The text after the WHERE content of an ASK block. */
  const AskClosing: string := "}\n"

  /**
    The text `add_ask_block` stores: `ASK WHERE {` around the where clauses, which
    are wrapped in the named graph when one is set.
   */
  function AskBlockData(q: SparqlQuery, ws: seq<string>): string {
    AskOpening + EncapsulateNamedGraph(q.namedGraph, CombineWhereClauses(ws)) + AskClosing
  }

  /** Where clauses that read back: non-empty single lines. */
  predicate WellFormedClauses(ws: seq<string>) {
    forall i :: 0 <= i < |ws| ==> ws[i] != "" && '\n' !in ws[i]
  }

  /** Reads combined where clauses back; the empty text is no clauses. */
  function ParseWhereClauses(text: string): seq<string> {
    if text == "" then [] else Split(text, '\n')
  }

  /** Reads the WHERE content back out of an ASK block. */
  function AskWhereBody(text: string): Option<string> {
    if StartsWith(text, AskOpening) && |text| >= |AskOpening| + |AskClosing| && EndsWith(text, AskClosing)
    then Some(text[|AskOpening|..|text| - |AskClosing|])
    else None
  }

  /** Reads the where clauses back out of an ASK block. */
  function DecodeAskBlock(ng: Option<string>, text: string): Option<seq<string>> {
    match AskWhereBody(text)
    case None => None
    case Some(body) =>
      match UnwrapNamedGraph(ng, body)
      case None => None
      case Some(content) => Some(ParseWhereClauses(content))
  }

  /** The text before the data of an `INSERT DATA` / `DELETE DATA` block. */
  function DataOpening(keyword: string): string {
    keyword + " {\n        "
  }

  /** The text after the data of an `INSERT DATA` / `DELETE DATA` block. */
  const DataClosing: string := "\n}\n"

  /**
    The text of an `INSERT DATA` or `DELETE DATA` block (sections 3.1.1 and 3.1.2 of
    SPARQL 1.1 Update): `KEYWORD {` around the triple lines, which are wrapped in the
    named graph when one is set.
   */
  function DataBlockData(keyword: string, ng: Option<string>, ts: seq<Triple>): string {
    DataOpening(keyword) + EncapsulateNamedGraph(ng, TriplesText(ts)) + DataClosing
  }

  /** Reads the triples back out of an `INSERT DATA` / `DELETE DATA` block. */
  function DecodeDataBlock(keyword: string, ng: Option<string>, text: string): Option<seq<Triple>> {
    var opening := DataOpening(keyword);
    if StartsWith(text, opening) && |text| >= |opening| + |DataClosing| && EndsWith(text, DataClosing) then
      match UnwrapNamedGraph(ng, text[|opening|..|text| - |DataClosing|])
      case None => None
      case Some(content) => ParseTriples(content)
    else None
  }

  /** The graph a DELETE/INSERT block names in its `WITH` clause, if any. */
  function WithTarget(ng: Option<string>): Option<string> {
    if NamedGraphSet(ng) then Some(EnsureAbsolute(ng.value)) else None
  }

  /** The `WITH <g>` line of a DELETE/INSERT block, with its line break, or nothing. */
  function WithPrologue(ng: Option<string>): string {
    match WithTarget(ng)
    case None => ""
    case Some(g) => "WITH " + g + "\n"
  }

  /** The lines of a DELETE/INSERT block, before joining, from the rendered group contents. */
  function DeleteInsertParts(target: Option<string>, delText: string, insText: string, whereText: string): seq<string> {
    (if target.Some? then ["WITH " + target.value] else [])
      + ["DELETE {" + delText + "}", "INSERT {" + insText + "}", "WHERE {" + whereText + "}"]
  }

  /**
    The text `add_delete_insert_data_block` stores (section 3.1.3 of SPARQL 1.1
    Update): `WITH <g>` exactly when a named graph is set, then the `DELETE`,
    `INSERT` and `WHERE` groups in that order, each present even when its list is
    empty.
   */
  function DeleteInsertBlockData(q: SparqlQuery, del: seq<Triple>, ins: seq<Triple>, ws: seq<string>): string {
    Join(DeleteInsertParts(WithTarget(q.namedGraph), TriplesText(del), TriplesText(ins), CombineWhereClauses(ws)), "\n")
  }

  /** A three-element join. */
  lemma JoinThree(a: string, b: string, c: string, sep: string)
    ensures Join([a, b, c], sep) == a + sep + b + sep + c
  {
    assert [a, b, c][1..] == [b, c] && [b, c][1..] == [c];
    assert Join([c], sep) == c;
    assert Join([b, c], sep) == b + sep + c;
    assert Join([a, b, c], sep) == a + sep + (b + sep + c);
  }

  /** A four-element join is the first element, the separator and the join of the rest. */
  lemma JoinFour(h: string, a: string, b: string, c: string, sep: string)
    ensures Join([h, a, b, c], sep) == h + sep + (a + sep + b + sep + c)
  {
    assert [h, a, b, c][1..] == [a, b, c];
    JoinThree(a, b, c, sep);
  }

  /** The `DELETE`, `INSERT` and `WHERE` groups of a DELETE/INSERT block, one per line. */
  function GroupsText(delText: string, insText: string, whereText: string): string {
    ("DELETE {" + delText + "}") + "\n" + ("INSERT {" + insText + "}") + "\n" + ("WHERE {" + whereText + "}")
  }

  /** The layout of DELETE/INSERT block parts as one string. */
  lemma DeleteInsertPartsLayout(target: Option<string>, delText: string, insText: string, whereText: string)
    ensures Join(DeleteInsertParts(target, delText, insText, whereText), "\n")
      == (if target.Some? then "WITH " + target.value + "\n" else "")
      + GroupsText(delText, insText, whereText)
  {
    var d, i, w := "DELETE {" + delText + "}", "INSERT {" + insText + "}", "WHERE {" + whereText + "}";
    if target.Some? {
      var with := "WITH " + target.value;
      assert DeleteInsertParts(target, delText, insText, whereText) == [with, d, i, w];
      JoinFour(with, d, i, w, "\n");
    } else {
      assert DeleteInsertParts(target, delText, insText, whereText) == [d, i, w];
      JoinThree(d, i, w, "\n");
    }
  }

  /** The layout of a DELETE/INSERT block as one string. */
  lemma DeleteInsertLayout(q: SparqlQuery, del: seq<Triple>, ins: seq<Triple>, ws: seq<string>)
    ensures DeleteInsertBlockData(q, del, ins, ws) == WithPrologue(q.namedGraph)
      + GroupsText(TriplesText(del), TriplesText(ins), CombineWhereClauses(ws))
  {
    DeleteInsertPartsLayout(WithTarget(q.namedGraph), TriplesText(del), TriplesText(ins), CombineWhereClauses(ws));
  }

  /** Reads the three groups back out of a DELETE/INSERT block. */
  function DecodeDeleteInsert(ng: Option<string>, text: string): Option<(seq<Triple>, seq<Triple>, seq<string>)> {
    var prologue := WithPrologue(ng);
    if !StartsWith(text, prologue) then None
    else
      var groups := Split(text[|prologue|..], '}');
      if |groups| == 4 && groups[3] == ""
        && StartsWith(groups[0], "DELETE {") && StartsWith(groups[1], "\nINSERT {") && StartsWith(groups[2], "\nWHERE {")
      then
        match (ParseTriples(groups[0][8..]), ParseTriples(groups[1][9..]))
        case (Some(del), Some(ins)) =>
          Some((del, ins, ParseWhereClauses(groups[2][8..])))
        case _ => None
      else None
  }

  // ---------------------------------------------------------------------------
  // The builder
  // ---------------------------------------------------------------------------

  /** `r` is `q` with exactly one block of the given kind appended and nothing else changed. */
  predicate AppendsBlock(q: SparqlQuery, r: SparqlQuery, kind: QueryType) {
    && r.namedGraph == q.namedGraph && r.prefixes == q.prefixes
    && r.includeExplicit == q.includeExplicit && r.includeImplicit == q.includeImplicit
    && |r.blocks| == |q.blocks| + 1
    && r.blocks[..|q.blocks|] == q.blocks
    && r.blocks[|q.blocks|].kind == kind
  }

  /** `add_select_block` */
  function AddSelectBlock(q: SparqlQuery, vars: seq<string>, ws: seq<string>): (r: SparqlQuery)
    ensures AppendsBlock(q, r, Select)
    ensures r.blocks[|q.blocks|].data == SelectBlockData(q, vars, ws)
  {
    q.(blocks := q.blocks + [Block(Select, SelectBlockData(q, vars, ws))])
  }

  /** `add_ask_block` */
  function AddAskBlock(q: SparqlQuery, ws: seq<string>): (r: SparqlQuery)
    ensures AppendsBlock(q, r, Ask)
    ensures r.blocks[|q.blocks|].data == AskBlockData(q, ws)
  {
    q.(blocks := q.blocks + [Block(Ask, AskBlockData(q, ws))])
  }

  /** `add_insert_data_block` */
  function AddInsertDataBlock(q: SparqlQuery, ts: seq<Triple>): (r: SparqlQuery)
    ensures AppendsBlock(q, r, InsertData)
    ensures r.blocks[|q.blocks|].data == DataBlockData("INSERT DATA", q.namedGraph, ts)
  {
    q.(blocks := q.blocks + [Block(InsertData, DataBlockData("INSERT DATA", q.namedGraph, ts))])
  }

  /** `add_delete_data_block` */
  function AddDeleteDataBlock(q: SparqlQuery, ts: seq<Triple>): (r: SparqlQuery)
    ensures AppendsBlock(q, r, DeleteData)
    ensures r.blocks[|q.blocks|].data == DataBlockData("DELETE DATA", q.namedGraph, ts)
  {
    q.(blocks := q.blocks + [Block(DeleteData, DataBlockData("DELETE DATA", q.namedGraph, ts))])
  }

  /** `add_delete_insert_data_block` */
  function AddDeleteInsertBlock(q: SparqlQuery, del: seq<Triple>, ins: seq<Triple>, ws: seq<string>): (r: SparqlQuery)
    ensures AppendsBlock(q, r, DeleteInsert)
    ensures r.blocks[|q.blocks|].data == DeleteInsertBlockData(q, del, ins, ws)
  {
    q.(blocks := q.blocks + [Block(DeleteInsert, DeleteInsertBlockData(q, del, ins, ws))])
  }

  // ---------------------------------------------------------------------------
  // Rendering and validation
  // ---------------------------------------------------------------------------

  /** The `data` of each block, in insertion order. */
  function BlockTexts(bs: seq<Block>): (r: seq<string>)
    ensures |r| == |bs|
    ensures forall i :: 0 <= i < |bs| ==> r[i] == bs[i].data
  {
    if |bs| == 0 then [] else [bs[0].data] + BlockTexts(bs[1..])
  }

  /** `query_parts` of `to_string`: the prefix preamble when prefixes are given, then the blocks. */
  function QueryParts(q: SparqlQuery): seq<string> {
    (if PrefixesGiven(q.prefixes) then [PrefixString(q.prefixes.value)] else []) + BlockTexts(q.blocks)
  }

  /**
    The query text `to_string` assembles: the PREFIX preamble first when prefixes
    are given, then the block texts in insertion order, newline-separated.
   */
  function QueryText(q: SparqlQuery): (r: string)
    ensures PrefixesGiven(q.prefixes) ==> StartsWith(r, PrefixString(q.prefixes.value))
    ensures !PrefixesGiven(q.prefixes) ==> r == Join(BlockTexts(q.blocks), "\n")
    ensures |q.blocks| > 0 ==> EndsWith(r, q.blocks[|q.blocks| - 1].data)
  {
    assert !PrefixesGiven(q.prefixes) ==> QueryParts(q) == BlockTexts(q.blocks);
    Join(QueryParts(q), "\n")
  }

  /** What `to_string` returns: the query text, `None` (rejected), or the `IndexError` of an empty query. */
  datatype ToStringOutcome = Rendered(query: string) | Rejected | NoBlocksError

  /** Which validator `to_string` consults for a query whose first block has the given kind. */
  datatype ValidatorChoice = ReadValidator | UpdateValidator | NoValidator

  function ValidatorFor(kind: QueryType): (v: ValidatorChoice)
    ensures v == ReadValidator <==> IsReadType(kind)
    ensures v == UpdateValidator <==> IsUpdateType(kind)
    ensures v == NoValidator <==> kind == Construct || kind == Describe
  {
    if IsReadType(kind) then ReadValidator
    else if IsUpdateType(kind) then UpdateValidator
    else NoValidator
  }

  /** Whether the chosen validator lets the text through; no validator lets everything through. */
  predicate Accepts(v: ValidatorChoice, text: string, readValid: string -> bool, updateValid: string -> bool) {
    match v
    case ReadValidator => readValid(text)
    case UpdateValidator => updateValid(text)
    case NoValidator => true
  }

  /**
    `to_string`: without validation the text is returned as is. With validation the
    first block's kind picks the validator -- the read validator for SELECT and ASK,
    the update validator for the update kinds, none for CONSTRUCT and DESCRIBE --
    and a rejection yields `None`; an empty block list is an error. The validator
    never alters the text.
   */
  function ToString(q: SparqlQuery, validate: bool, readValid: string -> bool, updateValid: string -> bool): (r: ToStringOutcome)
    ensures r.Rendered? ==> r.query == QueryText(q)
    ensures r == NoBlocksError <==> validate && |q.blocks| == 0
    ensures !validate ==> r.Rendered?
    ensures validate && |q.blocks| > 0 ==>
      (r.Rendered? <==> Accepts(ValidatorFor(q.blocks[0].kind), QueryText(q), readValid, updateValid))
  {
    var query := QueryText(q);
    if !validate then Rendered(query)
    else if |q.blocks| == 0 then NoBlocksError
    else if Accepts(ValidatorFor(q.blocks[0].kind), query, readValid, updateValid) then Rendered(query)
    else Rejected
  }

  // ---------------------------------------------------------------------------
  // Round trips and layout
  // ---------------------------------------------------------------------------

  /** A well-formed triple line reads back as the triple it was rendered from. */
  lemma TripleLineRoundTrip(t: Triple)
    requires WellFormedTriple(t)
    ensures ParseTripleLine(TripleLine(t)) == Some(t)
  {
    var words := [t.s, t.p, t.o, "."];
    assert TripleLine(t) == Join(words, " ") by {
      JoinFour(t.s, t.p, t.o, ".", " ");
    }
    assert forall i :: 0 <= i < |words| ==> ' ' !in words[i];
    SplitJoin(words, ' ');
  }

  /** A rendered triple line holds no character that none of its terms holds, other than space and `.`. */
  lemma TripleLineKeepsAbsent(t: Triple, c: char)
    requires c != ' ' && c != '.'
    requires c !in t.s && c !in t.p && c !in t.o
    ensures c !in TripleLine(t)
  {
  }

  /** Rendered text of triples whose terms lack `c` lacks `c` too, for `c` other than space, `.` and newline. */
  lemma TriplesTextKeepsAbsent(ts: seq<Triple>, c: char)
    requires c != ' ' && c != '.' && c != '\n'
    requires forall i :: 0 <= i < |ts| ==> c !in ts[i].s && c !in ts[i].p && c !in ts[i].o
    ensures c !in TriplesText(ts)
  {
    var lines := TripleLines(ts);
    forall i | 0 <= i < |lines|
      ensures c !in lines[i]
    {
      TripleLineKeepsAbsent(ts[i], c);
    }
    JoinFree(lines, "\n", c);
  }

  /** Rendered lines of well-formed triples read back as the triples. */
  lemma TripleLinesRoundTrip(ts: seq<Triple>)
    requires forall i :: 0 <= i < |ts| ==> WellFormedTriple(ts[i])
    ensures ParseTripleLines(TripleLines(ts)) == Some(ts)
  {
    var lines := TripleLines(ts);
    forall i | 0 <= i < |ts|
      ensures ParseTripleLine(lines[i]) == Some(ts[i])
    {
      TripleLineRoundTrip(ts[i]);
    }
    ParseAllEach(lines, ParseTripleLine, ts);
  }

  /**
    The `"\n".join(...)` text of well-formed triples reads back as exactly those
    triples, in order; the empty list renders as the empty text.
   */
  lemma TriplesTextRoundTrip(ts: seq<Triple>)
    requires forall i :: 0 <= i < |ts| ==> WellFormedTriple(ts[i])
    ensures ParseTriples(TriplesText(ts)) == Some(ts)
  {
    var lines := TripleLines(ts);
    if |ts| > 0 {
      forall i | 0 <= i < |lines|
        ensures '\n' !in lines[i]
      {
        TripleLineKeepsAbsent(ts[i], '\n');
      }
      assert |lines[0]| >= 2;
      assert TriplesText(ts) != "";
      SplitJoin(lines, '\n');
      TripleLinesRoundTrip(ts);
    }
  }

  /** `_create_variable_string` lists the variables in order: splitting at spaces gives them back. */
  lemma VariableStringRoundTrip(vars: seq<string>)
    requires |vars| > 0
    requires forall i :: 0 <= i < |vars| ==> ' ' !in vars[i]
    ensures Split(VariableString(vars), ' ') == vars
  {
    SplitJoin(vars, ' ');
  }

  /** `_combine_where_clauses` keeps every clause, in order, one per line. */
  lemma WhereClausesRoundTrip(ws: seq<string>)
    requires WellFormedClauses(ws)
    ensures ParseWhereClauses(CombineWhereClauses(ws)) == ws
  {
    if |ws| > 0 {
      assert CombineWhereClauses(ws) != "";
      SplitJoin(ws, '\n');
    }
  }

  /** A well-formed PREFIX line reads back as its entry. */
  lemma PrefixLineRoundTrip(p: Prefix)
    requires WellFormedPrefix(p)
    ensures ParsePrefixLine(PrefixLine(p)) == Some(p)
  {
    var line := PrefixLine(p);
    var rest := p.name + [':'] + (" " + p.iri);
    assert StartsWith(line, "PREFIX ") && line[7..] == rest by {
      assert line == "PREFIX " + rest;
      DropOpening("PREFIX ", rest);
    }
    assert ':' in rest && TextBefore(rest, ':') == p.name && TextAfter(rest, ':') == " " + p.iri by {
      CutAtFirst(p.name, " " + p.iri, ':');
    }
    assert StartsWith(" " + p.iri, " ") && (" " + p.iri)[1..] == p.iri by {
      DropOpening(" ", p.iri);
    }
  }

  /** A PREFIX line of a well-formed entry is a single line. */
  lemma PrefixLineSingle(p: Prefix)
    requires WellFormedPrefix(p)
    ensures '\n' !in PrefixLine(p)
  {
    assert '\n' !in "PREFIX " && '\n' !in ": ";
    AbsentFromConcat("PREFIX ", p.name, '\n');
    AbsentFromConcat("PREFIX " + p.name, ": ", '\n');
    AbsentFromConcat("PREFIX " + p.name + ": ", p.iri, '\n');
  }

  /** PREFIX lines read back as their entries. */
  lemma PrefixLinesRoundTrip(pm: PrefixMap)
    requires forall i :: 0 <= i < |pm| ==> WellFormedPrefix(pm[i])
    ensures ParsePrefixLines(PrefixLines(pm)) == Some(pm)
  {
    var lines := PrefixLines(pm);
    forall i | 0 <= i < |pm|
      ensures ParsePrefixLine(lines[i]) == Some(pm[i])
    {
      PrefixLineRoundTrip(pm[i]);
    }
    ParseAllEach(lines, ParsePrefixLine, pm);
  }


  /**
    `_get_prefix_string` declares every entry of a non-empty prefix dictionary, in
    its order, one per line: reading the preamble back gives the dictionary.
   */
  lemma PrefixStringRoundTrip(pm: PrefixMap)
    requires |pm| > 0
    requires forall i :: 0 <= i < |pm| ==> WellFormedPrefix(pm[i])
    ensures ParsePrefixString(PrefixString(pm)) == Some(pm)
  {
    var lines := PrefixLines(pm);
    var body := Join(lines, "\n");
    assert Split(body, '\n') == lines by {
      forall i | 0 <= i < |lines|
        ensures '\n' !in lines[i]
      {
        PrefixLineSingle(pm[i]);
      }
      SplitJoin(lines, '\n');
    }
    var all := Split(PrefixString(pm), '\n');
    assert all == lines + [""] by {
      assert PrefixString(pm) == body + ['\n'] + "";
      SplitAround(body, "", '\n');
    }
    assert all[..|all| - 1] == lines;
    PrefixLinesRoundTrip(pm);
  }

  /** A first line, two optional lines and a last text, joined, split back into their lines. */
  lemma OptionalLinesSplit(first: string, a: Option<string>, b: Option<string>, last: string)
    requires '\n' !in first
    requires a.Some? ==> '\n' !in a.value
    requires b.Some? ==> '\n' !in b.value
    ensures var lines := Split(Join([first] + OptionalLine(a) + OptionalLine(b) + [last], "\n"), '\n');
      var k := if a.Some? then 2 else 1;
      var m := if b.Some? then k + 1 else k;
      && |lines| > m
      && lines[0] == first
      && (a.Some? ==> lines[1] == a.value)
      && (b.Some? ==> lines[k] == b.value)
      && lines[m] == TextBefore(last, '\n')
  {
    var head := [first] + OptionalLine(a);
    var init := head + OptionalLine(b);
    assert init[0] == first;
    assert a.Some? ==> init[1] == a.value;
    assert b.Some? ==> init[|head|] == b.value;
    forall i | 0 <= i < |init|
      ensures '\n' !in init[i]
    {
      if i == 0 {
      } else if i < |head| {
        assert init[i] == a.value;
      } else {
        assert init[i] == b.value;
      }
    }
    SplitJoinPrefix(init, last, '\n');
  }

  /**
    The SELECT block's lines come in the order `add_select_block` appends them:
    `SELECT` with the variables first, `FROM <g>` second when a named graph is set,
    the explicit/implicit `FROM` line next when one applies, and the `WHERE` group
    after them.
   */
  lemma SelectBlockLines(q: SparqlQuery, vars: seq<string>, ws: seq<string>)
    requires forall i :: 0 <= i < |vars| ==> '\n' !in vars[i]
    requires NamedGraphSet(q.namedGraph) ==> '\n' !in q.namedGraph.value
    ensures var lines := Split(SelectBlockData(q, vars, ws), '\n');
      var part := ExplicitImplicitClause(q.includeExplicit, q.includeImplicit);
      var k := if NamedGraphSet(q.namedGraph) then 2 else 1;
      && |lines| > k
      && lines[0] == "SELECT " + VariableString(vars)
      && (NamedGraphSet(q.namedGraph) ==> lines[1] == "FROM " + EnsureAbsolute(q.namedGraph.value))
      && (part.Some? ==> |lines| > k + 1 && lines[k] == part.value && StartsWith(lines[k + 1], "WHERE {"))
      && (part.None? ==> StartsWith(lines[k], "WHERE {"))
  {
    var first := "SELECT " + VariableString(vars);
    var last := "WHERE {" + CombineWhereClauses(ws) + "}";
    var from, part := FromClause(q.namedGraph), ExplicitImplicitClause(q.includeExplicit, q.includeImplicit);
    assert '\n' !in first by {
      SelectLineSingle(vars);
    }
    assert from.Some? ==> '\n' !in from.value by {
      FromClauseSingleLine(q.namedGraph);
    }
    assert part.Some? ==> '\n' !in part.value by {
      ExplicitImplicitSingleLine(q.includeExplicit, q.includeImplicit);
    }
    assert SelectBlockData(q, vars, ws) == Join([first] + OptionalLine(from) + OptionalLine(part) + [last], "\n");
    OptionalLinesSplit(first, from, part, last);
    FromClauseSingleLine(q.namedGraph);
    WhereGroupFirstLine(CombineWhereClauses(ws));
  }

  /**
    The SELECT block reads back as the where clauses it was built from, whenever the
    variables and the graph name are single lines and the clauses well formed.
   */
  lemma SelectBlockRoundTrip(q: SparqlQuery, vars: seq<string>, ws: seq<string>)
    requires forall i :: 0 <= i < |vars| ==> '\n' !in vars[i]
    requires NamedGraphSet(q.namedGraph) ==> '\n' !in q.namedGraph.value
    requires WellFormedClauses(ws)
    ensures DecodeSelectWhere(q, SelectBlockData(q, vars, ws)) == Some(ws)
  {
    var init := SelectHeader(q, vars);
    var last := "WHERE {" + CombineWhereClauses(ws) + "}";
    assert SelectWhereGroup(q, SelectBlockData(q, vars, ws)) == Some(last) by {
      SelectHeaderSingleLines(q, vars);
      assert SelectBlockData(q, vars, ws) == Join(init + [last], "\n");
      SplitJoinTail(init, last, '\n');
    }
    assert ParseWhereGroup(last) == Some(ws) by {
      Enclosed("WHERE {", CombineWhereClauses(ws), "}");
      WhereClausesRoundTrip(ws);
    }
  }

  /** The header lines of a SELECT block: the `SELECT` line and the optional `FROM` lines. */
  function SelectHeader(q: SparqlQuery, vars: seq<string>): seq<string> {
    ["SELECT " + VariableString(vars)]
      + OptionalLine(FromClause(q.namedGraph))
      + OptionalLine(ExplicitImplicitClause(q.includeExplicit, q.includeImplicit))
  }

  /** The header of a SELECT block has `SelectHeaderCount` lines, none with a line break. */
  lemma SelectHeaderSingleLines(q: SparqlQuery, vars: seq<string>)
    requires forall i :: 0 <= i < |vars| ==> '\n' !in vars[i]
    requires NamedGraphSet(q.namedGraph) ==> '\n' !in q.namedGraph.value
    ensures |SelectHeader(q, vars)| == SelectHeaderCount(q)
    ensures forall i :: 0 <= i < |SelectHeader(q, vars)| ==> '\n' !in SelectHeader(q, vars)[i]
  {
    var first := "SELECT " + VariableString(vars);
    var from, part := FromClause(q.namedGraph), ExplicitImplicitClause(q.includeExplicit, q.includeImplicit);
    assert '\n' !in first by {
      SelectLineSingle(vars);
    }
    assert from.Some? ==> '\n' !in from.value by {
      FromClauseSingleLine(q.namedGraph);
    }
    assert part.Some? ==> '\n' !in part.value by {
      ExplicitImplicitSingleLine(q.includeExplicit, q.includeImplicit);
    }
    OptionalLinesFree(first, from, part);
  }

  /** A first line and two optional lines, none with a line break. */
  lemma OptionalLinesFree(first: string, a: Option<string>, b: Option<string>)
    requires '\n' !in first
    requires a.Some? ==> '\n' !in a.value
    requires b.Some? ==> '\n' !in b.value
    ensures var init := [first] + OptionalLine(a) + OptionalLine(b);
      forall i :: 0 <= i < |init| ==> '\n' !in init[i]
  {
    var init := [first] + OptionalLine(a) + OptionalLine(b);
    forall i | 0 <= i < |init|
      ensures '\n' !in init[i]
    {
      if i == 0 {
      } else if i < 1 + |OptionalLine(a)| {
        assert init[i] == a.value;
      } else {
        assert init[i] == b.value;
      }
    }
  }

  /** The `SELECT` line is a single line when no variable holds a line break. */
  lemma SelectLineSingle(vars: seq<string>)
    requires forall i :: 0 <= i < |vars| ==> '\n' !in vars[i]
    ensures '\n' !in "SELECT " + VariableString(vars)
  {
    if |vars| > 0 {
      JoinFree(vars, " ", '\n');
    }
    assert '\n' !in "SELECT ";
    AbsentFromConcat("SELECT ", VariableString(vars), '\n');
  }

  /** The `FROM <g>` line names the delimited graph and is a single line when the graph name is. */
  lemma FromClauseSingleLine(ng: Option<string>)
    requires NamedGraphSet(ng) ==> '\n' !in ng.value
    ensures FromClause(ng).Some? <==> NamedGraphSet(ng)
    ensures FromClause(ng).Some? ==> FromClause(ng).value == "FROM " + EnsureAbsolute(ng.value) && '\n' !in FromClause(ng).value
  {
    if NamedGraphSet(ng) {
      var g := EnsureAbsolute(ng.value);
      assert '\n' !in g by {
        EnsureAbsoluteKeepsAbsent(ng.value, '\n');
      }
      assert '\n' !in "FROM " + g by {
        AbsentFromConcat("FROM ", g, '\n');
      }
    }
  }

  /** The explicit/implicit clause is a single line. */
  lemma ExplicitImplicitSingleLine(includeExplicit: bool, includeImplicit: bool)
    ensures var part := ExplicitImplicitClause(includeExplicit, includeImplicit);
      part.Some? ==> '\n' !in part.value
  {
    var e, i := "FROM onto:explicit", "FROM onto:implicit";
    assert forall j :: 0 <= j < |e| ==> e[j] != '\n';
    assert forall j :: 0 <= j < |i| ==> i[j] != '\n';
  }

  /** The first line of a `WHERE {...}` group starts with `WHERE {`. */
  lemma WhereGroupFirstLine(content: string)
    ensures StartsWith(TextBefore("WHERE {" + content + "}", '\n'), "WHERE {")
  {
    var last := "WHERE {" + content + "}";
    assert last[..7] == "WHERE {";
    TextBeforeKeepsPrefix(last, "WHERE {", '\n');
  }

  /** The ASK block wraps exactly the (possibly graph-wrapped) where clauses. */
  lemma AskWhereBodyOf(q: SparqlQuery, ws: seq<string>)
    ensures AskWhereBody(AskBlockData(q, ws)) == Some(EncapsulateNamedGraph(q.namedGraph, CombineWhereClauses(ws)))
  {
    Enclosed(AskOpening, EncapsulateNamedGraph(q.namedGraph, CombineWhereClauses(ws)), AskClosing);
  }

  /** The ASK block reads back as the where clauses it was built from, in the query's named graph. */
  lemma AskBlockRoundTrip(q: SparqlQuery, ws: seq<string>)
    requires WellFormedClauses(ws)
    ensures DecodeAskBlock(q.namedGraph, AskBlockData(q, ws)) == Some(ws)
  {
    AskWhereBodyOf(q, ws);
    UnwrapEncapsulate(q.namedGraph, CombineWhereClauses(ws));
    WhereClausesRoundTrip(ws);
  }

  /** An `INSERT DATA` / `DELETE DATA` block reads back as the triples it was built from. */
  lemma DataBlockRoundTrip(keyword: string, ng: Option<string>, ts: seq<Triple>)
    requires forall i :: 0 <= i < |ts| ==> WellFormedTriple(ts[i])
    ensures DecodeDataBlock(keyword, ng, DataBlockData(keyword, ng, ts)) == Some(ts)
  {
    var opening := DataOpening(keyword);
    var body := EncapsulateNamedGraph(ng, TriplesText(ts));
    Enclosed(opening, body, DataClosing);
    assert UnwrapNamedGraph(ng, body) == Some(TriplesText(ts)) by {
      UnwrapEncapsulate(ng, TriplesText(ts));
    }
    assert ParseTriples(TriplesText(ts)) == Some(ts) by {
      TriplesTextRoundTrip(ts);
    }
  }

  /** The text of the three DELETE/INSERT groups, each closed by a brace. */
  lemma GroupsShape(d: string, i: string, w: string)
    ensures GroupsText(d, i, w)
      == ("DELETE {" + d) + ['}'] + ("\nINSERT {" + i) + ['}'] + ("\nWHERE {" + w) + ['}']
  {
  }

  /** The opened groups hold no closing brace when their contents hold none. */
  lemma GroupsOpenFree(d: string, i: string, w: string)
    requires '}' !in d && '}' !in i && '}' !in w
    ensures '}' !in "DELETE {" + d && '}' !in "\nINSERT {" + i && '}' !in "\nWHERE {" + w
  {
  }

  /** The three groups of a DELETE/INSERT block split apart at their closing braces. */
  lemma GroupsSplit(d: string, i: string, w: string)
    requires '}' !in d && '}' !in i && '}' !in w
    ensures Split(GroupsText(d, i, w), '}')
      == ["DELETE {" + d, "\nINSERT {" + i, "\nWHERE {" + w, ""]
  {
    GroupsShape(d, i, w);
    GroupsOpenFree(d, i, w);
    SplitThree("DELETE {" + d, "\nINSERT {" + i, "\nWHERE {" + w, '}');
  }

  /** Triples whose terms also lack braces, so that a DELETE/INSERT block reads back. */
  predicate GroupSafeTriples(ts: seq<Triple>) {
    forall i :: 0 <= i < |ts| ==>
      WellFormedTriple(ts[i]) && '}' !in ts[i].s && '}' !in ts[i].p && '}' !in ts[i].o
  }

  /** Reading a DELETE/INSERT text back amounts to reading its three group contents. */
  lemma DecodeGroups(ng: Option<string>, d: string, i: string, w: string)
    requires '}' !in d && '}' !in i && '}' !in w
    requires ParseTriples(d).Some? && ParseTriples(i).Some?
    ensures DecodeDeleteInsert(ng, WithPrologue(ng)
      + GroupsText(d, i, w))
      == Some((ParseTriples(d).value, ParseTriples(i).value, ParseWhereClauses(w)))
  {
    var prologue := WithPrologue(ng);
    var groups := GroupsText(d, i, w);
    DropOpening(prologue, groups);
    GroupsSplit(d, i, w);
    DropOpening("DELETE {", d);
    DropOpening("\nINSERT {", i);
    DropOpening("\nWHERE {", w);
  }

  /**
    A DELETE/INSERT block reads back as its delete triples, insert triples and where
    clauses, each in order, behind the `WITH` line of the query's named graph.
   */
  lemma DeleteInsertRoundTrip(q: SparqlQuery, del: seq<Triple>, ins: seq<Triple>, ws: seq<string>)
    requires GroupSafeTriples(del) && GroupSafeTriples(ins)
    requires WellFormedClauses(ws) && forall i :: 0 <= i < |ws| ==> '}' !in ws[i]
    ensures DecodeDeleteInsert(q.namedGraph, DeleteInsertBlockData(q, del, ins, ws)) == Some((del, ins, ws))
  {
    var d, i, w := TriplesText(del), TriplesText(ins), CombineWhereClauses(ws);
    DeleteInsertLayout(q, del, ins, ws);
    assert '}' !in d && '}' !in i by {
      TriplesTextKeepsAbsent(del, '}');
      TriplesTextKeepsAbsent(ins, '}');
    }
    assert '}' !in w by {
      if |ws| > 0 {
        JoinFree(ws, "\n", '}');
      }
    }
    assert ParseTriples(d) == Some(del) && ParseTriples(i) == Some(ins) && ParseWhereClauses(w) == ws by {
      TriplesTextRoundTrip(del);
      TriplesTextRoundTrip(ins);
      WhereClausesRoundTrip(ws);
    }
    DecodeGroups(q.namedGraph, d, i, w);
  }

  /**
    Adding a block extends the rendered query at its end: the new block's text
    follows everything rendered before, after one line break. Blocks therefore
    appear in insertion order, after the PREFIX preamble.
   */
  lemma QueryTextAppend(q: SparqlQuery, b: Block)
    ensures var r := q.(blocks := q.blocks + [b]);
      QueryText(r) == if QueryParts(q) == [] then b.data else QueryText(q) + "\n" + b.data
  {
    var r := q.(blocks := q.blocks + [b]);
    var pre := if PrefixesGiven(q.prefixes) then [PrefixString(q.prefixes.value)] else [];
    assert BlockTexts(q.blocks + [b]) == BlockTexts(q.blocks) + [b.data];
    assert QueryParts(r) == QueryParts(q) + [b.data];
    if QueryParts(q) != [] {
      JoinAppend(QueryParts(q), b.data, "\n");
    }
  }

  /** With prefixes given and at least one block, the preamble and the blocks are separated by a line break. */
  lemma QueryTextWithPrefixes(q: SparqlQuery)
    requires PrefixesGiven(q.prefixes) && |q.blocks| > 0
    ensures QueryText(q) == PrefixString(q.prefixes.value) + "\n" + Join(BlockTexts(q.blocks), "\n")
  {
    JoinConcat([PrefixString(q.prefixes.value)], BlockTexts(q.blocks), "\n");
  }

  /** A one-block query is its block, after the PREFIX preamble when prefixes are given. */
  lemma SingleBlockText(q: SparqlQuery)
    requires |q.blocks| == 1
    ensures !PrefixesGiven(q.prefixes) ==> QueryText(q) == q.blocks[0].data
    ensures PrefixesGiven(q.prefixes) ==> QueryText(q) == PrefixString(q.prefixes.value) + "\n" + q.blocks[0].data
  {
    assert BlockTexts(q.blocks) == [q.blocks[0].data];
    if PrefixesGiven(q.prefixes) {
      QueryTextWithPrefixes(q);
    }
  }
}

=== FILE: strings.dfy ===
/**
  The Python `str` operations the query assembly relies on, over `seq<char>`:
  `startswith`/`endswith`, `sub in s`, `strip()`, `split(sep)`, `sep.join(xs)`
  and `replace(old, new)` for a one-character `old`.
 */
module Strings {

  /** `s.startswith(p)` */
  predicate StartsWith(s: string, p: string) {
    |p| <= |s| && s[..|p|] == p
  }

  /** `s.endswith(p)` */
  predicate EndsWith(s: string, p: string) {
    |p| <= |s| && s[|s| - |p|..] == p
  }

  /** `sub in s` for strings: `sub` occurs at some offset of `s`. */
  predicate Contains(s: string, sub: string) {
    exists i :: 0 <= i <= |s| - |sub| && OccursAt(s, sub, i)
  }

  /** `sub` occurs in `s` starting at offset `i`. */
  predicate OccursAt(s: string, sub: string, i: int)
    requires 0 <= i <= |s| - |sub|
  {
    s[i..i + |sub|] == sub
  }

  /** `str.isspace()` for one character: the characters `str.strip()` removes. */
  predicate IsSpace(c: char) {
    || c == ' '
    || ('\t' <= c <= '\r')
    || ('\U{1c}' <= c <= '\U{1f}')
    || c == '\U{85}' || c == '\U{a0}' || c == '\U{1680}'
    || ('\U{2000}' <= c <= '\U{200a}')
    || c == '\U{2028}' || c == '\U{2029}' || c == '\U{202f}' || c == '\U{205f}' || c == '\U{3000}'
  }

  /** `s.lstrip()` */
  function TrimLeft(s: string): (r: string)
    ensures |r| <= |s| && r == s[|s| - |r|..]
    ensures r == [] || !IsSpace(r[0])
    ensures forall i :: 0 <= i < |s| - |r| ==> IsSpace(s[i])
  {
    if |s| > 0 && IsSpace(s[0]) then
      var r := TrimLeft(s[1..]);
      assert s[1..][|s| - 1 - |r|..] == s[|s| - |r|..];
      assert forall i :: 1 <= i < |s| - |r| ==> s[i] == s[1..][i - 1];
      r
    else s
  }

  /** `s.rstrip()` */
  function TrimRight(s: string): (r: string)
    ensures |r| <= |s| && r == s[..|r|]
    ensures r == [] || !IsSpace(r[|r| - 1])
    ensures forall i :: |r| <= i < |s| ==> IsSpace(s[i])
  {
    if |s| > 0 && IsSpace(s[|s| - 1]) then TrimRight(s[..|s| - 1]) else s
  }

  /** `s.strip()`: `s` without its leading and trailing whitespace. */
  function Strip(s: string): (r: string)
    ensures |r| <= |s|
    ensures r == [] || (!IsSpace(r[0]) && !IsSpace(r[|r| - 1]))
  {
    TrimLeft(TrimRight(s))
  }

  /** A string that starts and ends with a non-space character is left alone by `strip()`. */
  lemma StripKeepsTrimmed(s: string)
    requires s == [] || (!IsSpace(s[0]) && !IsSpace(s[|s| - 1]))
    ensures Strip(s) == s
  {
  }

  /** `strip()` only removes whitespace: every other character survives it. */
  lemma StripKeepsNonSpace(s: string, c: char)
    requires c in s && !IsSpace(c)
    ensures c in Strip(s)
  {
    var t := TrimRight(s);
    var i :| 0 <= i < |s| && s[i] == c;
    assert i < |t|;
    assert t[i] == c;
    var u := TrimLeft(t);
    assert |t| - |u| <= i;
    assert u[i - (|t| - |u|)] == c;
  }

  /** `strip()` never introduces a character. */
  lemma StripKeepsAbsent(s: string, c: char)
    requires c !in s
    ensures c !in Strip(s)
  {
    var t := TrimRight(s);
    assert c !in t by {
      AbsentFromSlice(s, 0, |t|, c);
    }
    var u := TrimLeft(t);
    assert c !in u by {
      AbsentFromSlice(t, |t| - |u|, |t|, c);
    }
  }

  /** A character absent from a string is absent from each of its slices. */
  lemma AbsentFromSlice(s: string, i: nat, j: nat, c: char)
    requires c !in s && i <= j <= |s|
    ensures c !in s[i..j]
  {
    forall k | 0 <= k < j - i
      ensures s[i..j][k] != c
    {
      assert s[i..j][k] == s[i + k];
    }
  }

  /** Number of occurrences of `c` in `s`. */
  function Count(s: string, c: char): (n: nat)
    ensures n > 0 <==> c in s
    ensures n <= |s|
  {
    if |s| == 0 then 0 else (if s[0] == c then 1 else 0) + Count(s[1..], c)
  }

  /** `s.index(c)`: the offset of the first `c`. */
  function IndexOf(s: string, c: char): (i: nat)
    requires c in s
    ensures i < |s| && s[i] == c && c !in s[..i]
  {
    if s[0] == c then 0 else 1 + IndexOf(s[1..], c)
  }

  /** The text before the first `c`, or all of `s` when it has none. */
  function TextBefore(s: string, c: char): (r: string)
    ensures c !in r && StartsWith(s, r)
    ensures c in s ==> |r| < |s| && s[|r|] == c
    ensures c !in s ==> r == s
  {
    if c in s then s[..IndexOf(s, c)] else s
  }

  /** The text after the first `c`, or the empty string when `s` has none. */
  function TextAfter(s: string, c: char): (r: string)
    ensures c in s ==> s == TextBefore(s, c) + [c] + r
    ensures c !in s ==> r == []
  {
    if c in s then s[IndexOf(s, c) + 1..] else []
  }

  /** `s.rindex(c)`: the offset of the last `c`. */
  function LastIndexOf(s: string, c: char): (i: nat)
    requires c in s
    ensures i < |s| && s[i] == c && c !in s[i + 1..]
  {
    if s[|s| - 1] == c then |s| - 1
    else
      assert c in s[..|s| - 1] by { assert s == s[..|s| - 1] + [s[|s| - 1]]; }
      LastIndexOf(s[..|s| - 1], c)
  }

  /** The text after the last `c`, or all of `s` when it has none: the longest `c`-free suffix. */
  function TextAfterLast(s: string, c: char): (r: string)
    ensures c !in r && EndsWith(s, r)
    ensures c in s ==> |r| < |s| && s[|s| - |r| - 1] == c
    ensures c !in s ==> r == s
  {
    if c in s then s[LastIndexOf(s, c) + 1..] else s
  }

  /**
    `s.split(sep)`: the maximal `sep`-free pieces of `s`, in order. As in Python,
    the empty string splits into one empty piece and every separator adds a piece.
   */
  function Split(s: string, sep: char): (parts: seq<string>)
    ensures |parts| > 0
  {
    if |s| == 0 then [""]
    else
      var rest := Split(s[1..], sep);
      if s[0] == sep then [""] + rest
      else [[s[0]] + rest[0]] + rest[1..]
  }

  /** `sep.join(xs)` */
  function Join(xs: seq<string>, sep: string): (r: string)
    ensures |xs| > 0 ==> StartsWith(r, xs[0]) && EndsWith(r, xs[|xs| - 1])
  {
    if |xs| == 0 then ""
    else if |xs| == 1 then xs[0]
    else xs[0] + sep + Join(xs[1..], sep)
  }

  /** `s.replace(c, rep)` for a one-character pattern. */
  function ReplaceChar(s: string, c: char, rep: string): (r: string)
    ensures |rep| >= 1 ==> |r| >= |s|
  {
    if |s| == 0 then "" else (if s[0] == c then rep else [s[0]]) + ReplaceChar(s[1..], c, rep)
  }

  /** Joining the pieces of a split with the same separator gives back the original string. */
  lemma {:induction false} JoinSplit(s: string, c: char)
    ensures Join(Split(s, c), [c]) == s
  {
    if |s| > 0 {
      var rest := Split(s[1..], c);
      assert Join(rest, [c]) == s[1..] by {
        JoinSplit(s[1..], c);
      }
      assert Split(s, c) == if s[0] == c then [""] + rest else [[s[0]] + rest[0]] + rest[1..] by {
        assert s == [s[0]] + s[1..];
        SplitCons(s[0], s[1..], c);
      }
      if s[0] == c {
        JoinCons("", rest, [c]);
      } else {
        JoinExtendFirst([s[0]], rest, [c]);
      }
      assert s == [s[0]] + s[1..];
    }
  }

  /** A join of two or more pieces is the first piece, the separator and the join of the rest. */
  lemma JoinCons(x: string, xs: seq<string>, sep: string)
    requires |xs| > 0
    ensures Join([x] + xs, sep) == x + sep + Join(xs, sep)
  {
    assert ([x] + xs)[1..] == xs;
  }

  /** Extending the first piece of a join extends the joined text at its front. */
  lemma JoinExtendFirst(p: string, xs: seq<string>, sep: string)
    requires |xs| > 0
    ensures Join([p + xs[0]] + xs[1..], sep) == p + Join(xs, sep)
  {
    if |xs| > 1 {
      JoinCons(p + xs[0], xs[1..], sep);
      JoinCons(xs[0], xs[1..], sep);
      assert xs == [xs[0]] + xs[1..];
    }
  }

  /** Splitting at an explicit separator splits the two sides independently. */
  lemma {:induction false} SplitAround(a: string, b: string, c: char)
    ensures Split(a + [c] + b, c) == Split(a, c) + Split(b, c)
  {
    if |a| == 0 {
      assert a + [c] + b == [c] + b;
      SplitCons(c, b, c);
      assert Split(a, c) == [""];
    } else {
      var t := a[1..] + [c] + b;
      assert a + [c] + b == [a[0]] + t;
      assert a == [a[0]] + a[1..];
      SplitAround(a[1..], b, c);
      SplitCons(a[0], t, c);
      SplitCons(a[0], a[1..], c);
      ConsPieceAppend(a[0], c, Split(a[1..], c), Split(b, c));
    }
  }

  /** Prepending a character to the first piece commutes with appending further pieces. */
  lemma ConsPieceAppend(x: char, c: char, rest: seq<string>, tail: seq<string>)
    requires |rest| > 0
    ensures var all := rest + tail;
      (if x == c then [""] + all else [[x] + all[0]] + all[1..])
      == (if x == c then [""] + rest else [[x] + rest[0]] + rest[1..]) + tail
  {
    var all := rest + tail;
    if x == c {
      ConcatAssoc([""], rest, tail);
    } else {
      assert all[0] == rest[0];
      assert all[1..] == rest[1..] + tail;
      ConcatAssoc([[x] + rest[0]], rest[1..], tail);
    }
  }

  /** A split has one piece more than there are separators. */
  lemma {:induction false} SplitLength(s: string, c: char)
    ensures |Split(s, c)| == Count(s, c) + 1
  {
    if |s| > 0 {
      SplitLength(s[1..], c);
    }
  }

  /** Splitting a string that starts with a given character. */
  lemma SplitCons(x: char, t: string, c: char)
    ensures var rest := Split(t, c);
      Split([x] + t, c) == if x == c then [""] + rest else [[x] + rest[0]] + rest[1..]
  {
    assert ([x] + t)[1..] == t;
  }

  /** A string without the separator splits into itself. */
  lemma {:induction false} SplitNoSeparator(s: string, c: char)
    requires c !in s
    ensures Split(s, c) == [s]
  {
    if |s| > 0 {
      SplitNoSeparator(s[1..], c);
      assert s == [s[0]] + s[1..];
      SplitCons(s[0], s[1..], c);
    }
  }

  /** No piece of a split contains the separator. */
  lemma {:induction false} SplitPiecesFree(s: string, c: char)
    ensures forall i :: 0 <= i < |Split(s, c)| ==> c !in Split(s, c)[i]
  {
    if |s| > 0 {
      SplitPiecesFree(s[1..], c);
    }
  }

  /** The first piece of a split is the text before the first separator. */
  lemma {:induction false} SplitFirst(s: string, c: char)
    ensures Split(s, c)[0] == TextBefore(s, c)
  {
    if |s| > 0 && s[0] != c {
      SplitFirst(s[1..], c);
      assert s == [s[0]] + s[1..];
      if c in s[1..] {
        var j := IndexOf(s[1..], c);
        assert s[..j + 1] == [s[0]] + s[1..][..j];
        assert IndexOf(s, c) == j + 1;
      }
    }
  }

  /** Splitting a join of separator-free pieces recovers the pieces. */
  lemma SplitJoin(xs: seq<string>, c: char)
    requires |xs| > 0
    requires forall i :: 0 <= i < |xs| ==> c !in xs[i]
    ensures Split(Join(xs, [c]), c) == xs
  {
    var last := xs[|xs| - 1];
    assert Split(Join(xs, [c]), c) == xs[..|xs| - 1] + Split(last, c) by {
      SplitJoinInit(xs, c);
    }
    assert Split(last, c) == [last] by {
      SplitNoSeparator(last, c);
    }
    assert xs[..|xs| - 1] + [last] == xs;
  }

  /** Appending an element to a non-empty join appends the separator and the element. */
  lemma {:induction false} JoinAppend(xs: seq<string>, x: string, sep: string)
    requires |xs| > 0
    ensures Join(xs + [x], sep) == Join(xs, sep) + sep + x
  {
    if |xs| > 1 {
      assert (xs + [x])[1..] == xs[1..] + [x];
      JoinAppend(xs[1..], x, sep);
    }
  }

  /** A join of two non-empty lists is the two joins glued by the separator. */
  lemma {:induction false} JoinConcat(xs: seq<string>, ys: seq<string>, sep: string)
    requires |xs| > 0 && |ys| > 0
    ensures Join(xs + ys, sep) == Join(xs, sep) + sep + Join(ys, sep)
  {
    if |xs| == 1 {
      assert xs + ys == [xs[0]] + ys;
      assert ([xs[0]] + ys)[1..] == ys;
    } else {
      assert (xs + ys)[1..] == xs[1..] + ys;
      JoinConcat(xs[1..], ys, sep);
    }
  }

  /** The last piece of a split is the text after the last separator. */
  lemma SplitLast(s: string, c: char)
    ensures var parts := Split(s, c); parts[|parts| - 1] == TextAfterLast(s, c)
  {
    if c in s {
      var i := LastIndexOf(s, c);
      assert s == s[..i] + [c] + s[i + 1..];
      SplitAround(s[..i], s[i + 1..], c);
      SplitNoSeparator(s[i + 1..], c);
    } else {
      SplitNoSeparator(s, c);
    }
  }

  /** Every occurrence of the pattern becomes `rep`; other characters are kept. */
  lemma {:induction false} ReplaceCharAppend(a: string, b: string, c: char, rep: string)
    ensures ReplaceChar(a + b, c, rep) == ReplaceChar(a, c, rep) + ReplaceChar(b, c, rep)
  {
    if |a| > 0 {
      assert (a + b)[1..] == a[1..] + b;
      ReplaceCharAppend(a[1..], b, c, rep);
    } else {
      assert a + b == b;
    }
  }

  /** Substring occurrence survives extending the string on either side. */
  lemma ContainsExtend(s: string, sub: string, pre: string, post: string)
    requires Contains(s, sub)
    ensures Contains(pre + s + post, sub)
  {
    var i :| 0 <= i <= |s| - |sub| && OccursAt(s, sub, i);
    var t := pre + s + post;
    assert t[|pre| + i..|pre| + i + |sub|] == sub;
    assert OccursAt(t, sub, |pre| + i);
  }

  /** A two-character substring is two adjacent characters. */
  lemma ContainsPair(s: string, a: char, b: char)
    ensures Contains(s, [a, b]) <==> exists i :: 0 <= i < |s| - 1 && s[i] == a && s[i + 1] == b
  {
    if Contains(s, [a, b]) {
      var i :| 0 <= i <= |s| - 2 && OccursAt(s, [a, b], i);
      assert s[i] == a && s[i + 1] == b;
    }
    if exists i :: 0 <= i < |s| - 1 && s[i] == a && s[i + 1] == b {
      var i :| 0 <= i < |s| - 1 && s[i] == a && s[i + 1] == b;
      assert s[i..i + 2] == [a, b];
      assert OccursAt(s, [a, b], i);
    }
  }

  /** In `a + [c] + b` with no `c` in `a`, the first `c` is the one after `a`. */
  lemma IndexOfAt(a: string, b: string, c: char)
    requires c !in a
    ensures IndexOf(a + [c] + b, c) == |a|
  {
    var s := a + [c] + b;
    SplitAround(a, b, c);
    SplitNoSeparator(a, c);
    SplitFirst(s, c);
  }

  /** Cutting `a + [c] + b` at its first `c`, when `a` has none, gives `a` and `b`. */
  lemma CutAtFirst(a: string, b: string, c: char)
    requires c !in a
    ensures var t := a + [c] + b;
      c in t && TextBefore(t, c) == a && TextAfter(t, c) == b
  {
    var t := a + [c] + b;
    IndexOfAt(a, b, c);
    assert t[|a|] == c;
    assert t[..|a|] == a && t[|a| + 1..] == b;
  }

  /** In `a + [c] + b` with no `c` in `b`, the text after the last `c` is `b`. */
  lemma TextAfterLastAt(a: string, b: string, c: char)
    requires c !in b
    ensures TextAfterLast(a + [c] + b, c) == b
  {
    var s := a + [c] + b;
    SplitAround(a, b, c);
    SplitNoSeparator(b, c);
    SplitLast(s, c);
  }

  /** A join contains a character only if a piece or the separator does. */
  lemma {:induction false} JoinFree(xs: seq<string>, sep: string, c: char)
    requires c !in sep
    requires forall i :: 0 <= i < |xs| ==> c !in xs[i]
    ensures c !in Join(xs, sep)
  {
    if |xs| > 1 {
      JoinFree(xs[1..], sep, c);
    }
  }

  /** Concatenation is associative. */
  lemma ConcatAssoc<T>(a: seq<T>, b: seq<T>, c: seq<T>)
    ensures a + (b + c) == (a + b) + c
  {
  }

  /** All but the last element of a list of two or more. */
  lemma InitOfCons<T>(xs: seq<T>)
    requires |xs| > 1
    ensures xs[..|xs| - 1] == [xs[0]] + xs[1..][..|xs| - 2]
  {
  }

  /** When only the last piece may hold the separator, splitting the join recovers the other pieces. */
  lemma {:induction false} SplitJoinInit(xs: seq<string>, c: char)
    requires |xs| > 0
    requires forall i :: 0 <= i < |xs| - 1 ==> c !in xs[i]
    ensures Split(Join(xs, [c]), c) == xs[..|xs| - 1] + Split(xs[|xs| - 1], c)
  {
    if |xs| == 1 {
      assert xs[..0] == [];
    } else {
      var rest := xs[1..];
      SplitJoinInit(rest, c);
      assert Join(xs, [c]) == xs[0] + [c] + Join(rest, [c]);
      SplitAround(xs[0], Join(rest, [c]), c);
      SplitNoSeparator(xs[0], c);
      assert rest[|rest| - 1] == xs[|xs| - 1];
      InitOfCons(xs);
      var last := Split(xs[|xs| - 1], c);
      assert Split(Join(rest, [c]), c) == rest[..|rest| - 1] + last;
      assert Split(Join(xs, [c]), c) == [xs[0]] + (rest[..|rest| - 1] + last);
      ConcatAssoc([xs[0]], rest[..|rest| - 1], last);
      assert Split(Join(xs, [c]), c) == ([xs[0]] + rest[..|rest| - 1]) + last;
    }
  }

  /** Splitting a join whose pieces before the last are separator-free gives those pieces back, then the last piece's first line. */
  lemma SplitJoinPrefix(init: seq<string>, last: string, c: char)
    requires forall i :: 0 <= i < |init| ==> c !in init[i]
    ensures var lines := Split(Join(init + [last], [c]), c);
      && |lines| > |init|
      && (forall i :: 0 <= i < |init| ==> lines[i] == init[i])
      && lines[|init|] == TextBefore(last, c)
  {
    var xs := init + [last];
    assert xs[..|xs| - 1] == init;
    assert xs[|xs| - 1] == last;
    SplitJoinInit(xs, c);
    SplitFirst(last, c);
  }

  /** Splitting a join whose pieces before the last are separator-free and joining the lines after them gives back the last piece. */
  lemma SplitJoinTail(init: seq<string>, last: string, c: char)
    requires forall i :: 0 <= i < |init| ==> c !in init[i]
    ensures var lines := Split(Join(init + [last], [c]), c);
      |lines| > |init| && Join(lines[|init|..], [c]) == last
  {
    var xs := init + [last];
    assert xs[..|xs| - 1] == init && xs[|xs| - 1] == last;
    SplitJoinInit(xs, c);
    assert (init + Split(last, c))[|init|..] == Split(last, c);
    JoinSplit(last, c);
  }

  /** A separator-free prefix survives cutting a string at its first separator. */
  lemma TextBeforeKeepsPrefix(s: string, p: string, c: char)
    requires StartsWith(s, p) && c !in p
    ensures StartsWith(TextBefore(s, c), p)
  {
    if c in s {
      var i := IndexOf(s, c);
      assert forall j :: 0 <= j < |p| ==> s[j] == p[j];
    }
  }

  /** Three separator-free pieces, each closed by the separator, split back apart. */
  lemma SplitThree(a: string, b: string, c: string, sep: char)
    requires sep !in a && sep !in b && sep !in c
    ensures Split(a + [sep] + b + [sep] + c + [sep], sep) == [a, b, c, ""]
  {
    var t2 := c + [sep] + "";
    var t1 := b + [sep] + t2;
    assert a + [sep] + b + [sep] + c + [sep] == a + [sep] + t1;
    assert Split(t2, sep) == [c, ""] by {
      SplitNoSeparator(c, sep);
      SplitAround(c, "", sep);
    }
    assert Split(t1, sep) == [b, c, ""] by {
      SplitNoSeparator(b, sep);
      SplitAround(b, t2, sep);
    }
    SplitNoSeparator(a, sep);
    SplitAround(a, t1, sep);
  }

  /** Every string of the list starts with `p`. */
  predicate AllStartWith(xs: seq<string>, p: string) {
    forall i :: 0 <= i < |xs| ==> StartsWith(xs[i], p)
  }

  /** Prepending a string that starts with `p` keeps every string starting with `p`. */
  lemma AllStartWithCons(x: string, xs: seq<string>, p: string)
    requires StartsWith(x, p) && AllStartWith(xs, p)
    ensures AllStartWith([x] + xs, p)
  {
    assert forall i :: 1 <= i < |[x] + xs| ==> ([x] + xs)[i] == xs[i - 1];
  }

  /** Appending a string that starts with `p` keeps every string starting with `p`. */
  lemma AllStartWithAppend(xs: seq<string>, x: string, p: string)
    requires AllStartWith(xs, p) && StartsWith(x, p)
    ensures AllStartWith(xs + [x], p)
  {
    assert forall i :: 0 <= i < |xs| ==> (xs + [x])[i] == xs[i];
  }

  /** A character absent from both parts is absent from their concatenation. */
  lemma AbsentFromConcat(a: string, b: string, c: char)
    requires c !in a && c !in b
    ensures c !in a + b
  {
    assert forall i :: 0 <= i < |a + b| ==> (a + b)[i] == if i < |a| then a[i] else b[i - |a|];
  }

  /** Dropping an opening from the front of a text gives back the rest. */
  lemma DropOpening(o: string, x: string)
    ensures StartsWith(o + x, o) && (o + x)[|o|..] == x
  {
    assert (o + x)[..|o|] == o;
  }

  /** A concatenation starts with its first part. */
  lemma PrefixOfConcat(a: string, b: string)
    ensures StartsWith(a + b, a)
  {
    assert (a + b)[..|a|] == a;
  }

  /** A concatenation ends with its last part. */
  lemma SuffixOfConcat(a: string, b: string)
    ensures EndsWith(a + b, b)
  {
    assert (a + b)[|a|..] == b;
  }

  /** A prefix of the middle part extends to a prefix of the whole. */
  lemma StartsWithInside(a: string, b: string, c: string, d: string)
    requires StartsWith(b, c)
    ensures StartsWith(a + b + d, a + c)
  {
    assert (a + b + d)[..|a + c|] == a + b[..|c|];
  }

  /** A suffix of the middle part extends to a suffix of the whole. */
  lemma EndsWithInside(a: string, b: string, c: string, d: string)
    requires EndsWith(b, c)
    ensures EndsWith(a + b + d, c + d)
  {
    assert (a + b + d)[|a + b + d| - |c + d|..] == b[|b| - |c|..] + d;
  }

  /** A suffix of a suffix is a suffix. */
  lemma EndsWithTrans(s: string, t: string, u: string)
    requires EndsWith(s, t) && EndsWith(t, u)
    ensures EndsWith(s, u)
  {
    assert s[|s| - |u|..] == s[|s| - |t|..][|t| - |u|..];
  }

  /** A prefix of a prefix is a prefix. */
  lemma StartsWithTrans(s: string, t: string, u: string)
    requires StartsWith(s, t) && StartsWith(t, u)
    ensures StartsWith(s, u)
  {
    assert s[..|u|] == s[..|t|][..|u|];
  }

  /** A text between an opening and a closing is found again between them. */
  lemma Enclosed(a: string, b: string, c: string)
    ensures var t := a + b + c;
      && StartsWith(t, a) && EndsWith(t, c) && |t| >= |a| + |c|
      && t[|a|..|t| - |c|] == b
  {
    var t := a + b + c;
    assert t[..|a|] == a;
    assert t[|t| - |c|..] == c;
    assert t[|a|..|t| - |c|] == b;
  }
}

=== FILE: utils.dfy ===
/**
  The token normaliser of `graph_db_interface/utils/utils.py`: adding and removing
  `<...>` IRI delimiters, classifying tokens as IRIs or shorthand `prefix:local`
  names, preparing subject/predicate/object tokens, named-graph wrapping, string
  literal escaping and local-name extraction.
 */
module Utils {
  import opened Wrappers
  import opened Strings

  // ---------------------------------------------------------------------------
  // Values handed to the normaliser
  // ---------------------------------------------------------------------------

  /** The IRI of `xsd:string`. */
  const XsdString: string := "http://www.w3.org/2001/XMLSchema#string"

  /**
    An rdflib `Literal`. `lexical` is the literal's text (a `Literal` is a Python
    `str`); `valueIsString` and `truthy` are what the literal library computes from
    it: whether `.value` is a Python `str`, and `bool(literal)`.
   */
  datatype Literal = Literal(lexical: string, datatypeIri: string, valueIsString: bool, truthy: bool)

  /**
    A Python value given as a triple term: a plain `str`, an rdflib `Literal`, or any
    other value (int, float, bool, date, ...) whose canonical lexical form and XSD
    datatype the literal library supplies.
   */
  datatype Value =
    | Text(text: string)
    | Lit(lit: Literal)
    | NonText(lexical: string, datatypeIri: string, truthy: bool)
  {
    /** `isinstance(v, str)`: a `Literal` is a `str` subclass. */
    predicate IsStr() {
      Text? || Lit?
    }

    /** The `str` content of a `str` or `Literal` value. */
    function Str(): string
      requires IsStr()
    {
      if Text? then text else lit.lexical
    }
  }

  /** One entry of a prefix dictionary: `name` maps to `iri`. */
  datatype Prefix = Prefix(name: string, iri: string)

  /** A Python prefix dictionary, in insertion order. */
  type PrefixMap = seq<Prefix>

  /** `k in prefixes` */
  predicate HasKey(pm: PrefixMap, k: string) {
    exists i :: 0 <= i < |pm| && pm[i].name == k
  }

  /** `if prefixes:` -- a dictionary was passed and it is not empty. */
  predicate PrefixesGiven(prefixes: Option<PrefixMap>) {
    prefixes.Some? && |prefixes.value| > 0
  }

  /** `if named_graph:` -- a named graph was passed and it is not the empty string. */
  predicate NamedGraphSet(ng: Option<string>) {
    ng.Some? && ng.value != ""
  }

  // ---------------------------------------------------------------------------
  // Angle-bracket delimiters
  // ---------------------------------------------------------------------------

  /** `is_absolute`: the token is enclosed in `<` and `>`. */
  predicate IsAbsolute(iri: string) {
    StartsWith(iri, "<") && EndsWith(iri, ">")
  }

  /** `strip_angle_brackets`: removes one pair of enclosing delimiters, if there is one. */
  function StripAngleBrackets(iri: string): (r: string)
    ensures IsAbsolute(iri) ==> iri == "<" + r + ">"
    ensures !IsAbsolute(iri) ==> r == iri
  {
    if IsAbsolute(iri) then
      assert iri[0] == '<' && iri[|iri| - 1] == '>';
      iri[1..|iri| - 1]
    else iri
  }

  /**
    `ensure_absolute`: trims the token and encloses it in `<...>` unless it already
    is. The result is always delimited and has no surrounding whitespace; a trimmed
    token that was already delimited comes back unchanged, any other comes back as
    exactly the trimmed text inside new delimiters.
   */
  function EnsureAbsolute(iri: string): (r: string)
    ensures IsAbsolute(r) && |r| >= 2
    ensures IsAbsolute(Strip(iri)) ==> r == Strip(iri)
    ensures !IsAbsolute(Strip(iri)) ==> StripAngleBrackets(r) == Strip(iri)
  {
    var t := Strip(iri);
    if StartsWith(t, "<") && EndsWith(t, ">") then t
    else
      var r := "<" + t + ">";
      assert r[..1] == "<" && r[|r| - 1..] == ">";
      assert r[1..|r| - 1] == t;
      r
  }

  /** `ensure_absolute` adds no character other than the delimiters. */
  lemma EnsureAbsoluteKeepsAbsent(iri: string, c: char)
    requires c !in iri && c != '<' && c != '>'
    ensures c !in EnsureAbsolute(iri)
  {
    var t := Strip(iri);
    StripKeepsAbsent(iri, c);
    if !IsAbsolute(t) {
      assert c !in "<" && c !in ">";
      AbsentFromConcat("<", t, c);
      AbsentFromConcat("<" + t, ">", c);
    }
  }

  /** `ensure_absolute` leaves its own output alone: it is idempotent. */
  lemma EnsureAbsoluteIdempotent(iri: string)
    ensures EnsureAbsolute(EnsureAbsolute(iri)) == EnsureAbsolute(iri)
  {
    var r := EnsureAbsolute(iri);
    assert Strip(r) == r by {
      DelimitedIsTrimmed(r);
      StripKeepsTrimmed(r);
    }
  }

  /** A delimited token has no surrounding whitespace. */
  lemma DelimitedIsTrimmed(r: string)
    requires IsAbsolute(r)
    ensures r != [] && !IsSpace(r[0]) && !IsSpace(r[|r| - 1])
  {
    assert r[..1] == "<" && r[|r| - 1..] == ">";
    assert r[0] == '<' && r[|r| - 1] == '>';
  }

  /**
    Removing the delimiters that `ensure_absolute` added gives back the trimmed token,
    and only then: a token that was already delimited loses its own delimiters.
   */
  lemma StripUndoesEnsureAbsolute(iri: string)
    ensures StripAngleBrackets(EnsureAbsolute(iri)) == Strip(iri) <==> !IsAbsolute(Strip(iri))
  {
  }

  /**
    Conversely, re-delimiting a stripped IRI gives back the IRI when its inner text is
    trimmed and not itself delimited.
   */
  lemma EnsureAbsoluteUndoesStrip(iri: string)
    requires IsAbsolute(iri)
    requires var inner := StripAngleBrackets(iri); Strip(inner) == inner && !IsAbsolute(inner)
    ensures EnsureAbsolute(StripAngleBrackets(iri)) == iri
  {
  }

  // ---------------------------------------------------------------------------
  // IRI classification
  // ---------------------------------------------------------------------------

  /** A character `urlsplit` accepts in a scheme: ASCII letters, digits, `+`, `-`, `.`. */
  predicate IsSchemeChar(c: char) {
    ('a' <= c <= 'z') || ('A' <= c <= 'Z') || ('0' <= c <= '9') || c == '+' || c == '-' || c == '.'
  }

  /** `urlsplit` finds a scheme: text before the first `:`, non-empty, ASCII letter first, scheme characters only. */
  predicate HasScheme(url: string) {
    && ':' in url
    && IndexOf(url, ':') > 0
    && ('a' <= url[0] <= 'z' || 'A' <= url[0] <= 'Z')
    && forall k :: 0 <= k < IndexOf(url, ':') ==> IsSchemeChar(url[k])
  }

  /** After the scheme, `//` opens a network location that is non-empty (it ends at `/`, `?` or `#`). */
  predicate HasNetloc(rest: string) {
    StartsWith(rest, "//") && |rest| > 2 && rest[2] !in "/?#"
  }

  /**
    `is_iri`: after removing the delimiters, `urlparse` finds both a scheme and a
    network location.
   */
  predicate IsIri(value: string) {
    var url := StripAngleBrackets(value);
    HasScheme(url) && HasNetloc(TextAfter(url, ':'))
  }

  /** Every IRI contains the colon that ends its scheme. */
  lemma IriHasColon(value: string)
    requires IsIri(value)
    ensures ':' in value
  {
    var url := StripAngleBrackets(value);
    var i := IndexOf(url, ':');
    if IsAbsolute(value) {
      assert value[i + 1] == ':';
    }
  }

  /** An RFC 3986 scheme: an ASCII letter, then scheme characters. */
  predicate IsScheme(scheme: string) {
    && |scheme| > 0
    && ('a' <= scheme[0] <= 'z' || 'A' <= scheme[0] <= 'Z')
    && forall k :: 0 <= k < |scheme| ==> IsSchemeChar(scheme[k])
  }

  /** The start of a non-empty network location: not `/`, `?` or `#`. */
  predicate OpensAuthority(rest: string) {
    |rest| > 0 && rest[0] !in "/?#"
  }

  /** A scheme, `://` and a non-empty authority make an IRI, with or without delimiters. */
  lemma IriOfParts(scheme: string, rest: string)
    requires IsScheme(scheme) && OpensAuthority(rest)
    ensures IsIri(scheme + "://" + rest)
    ensures IsIri("<" + scheme + "://" + rest + ">")
  {
    var url := scheme + "://" + rest;
    assert HasScheme(url) && HasNetloc(TextAfter(url, ':')) by {
      SchemeThenAuthority(scheme, rest);
    }
    assert !IsAbsolute(url) by {
      assert url[0] == scheme[0];
    }
    assert "<" + scheme + "://" + rest + ">" == "<" + url + ">";
    StripAngleBracketsOfDelimited(url);
  }

  /** `urlsplit` reads a scheme and a non-empty network location out of `scheme://rest`. */
  lemma SchemeThenAuthority(scheme: string, rest: string)
    requires IsScheme(scheme) && OpensAuthority(rest)
    ensures var url := scheme + "://" + rest;
      HasScheme(url) && HasNetloc(TextAfter(url, ':'))
  {
    var url := scheme + "://" + rest;
    assert ':' !in scheme by {
      forall k | 0 <= k < |scheme|
        ensures scheme[k] != ':'
      {
        assert IsSchemeChar(scheme[k]);
      }
    }
    assert url == scheme + [':'] + ("//" + rest);
    IndexOfAt(scheme, "//" + rest, ':');
    assert url[..|scheme|] == scheme;
    assert forall k :: 0 <= k < |scheme| ==> url[k] == scheme[k];
  }

  /** Conversely, every IRI is, inside its delimiters, a scheme, `://` and a non-empty authority. */
  lemma IriParts(value: string)
    requires IsIri(value)
    ensures var url := StripAngleBrackets(value);
      var i := IndexOf(url, ':');
      && |url| >= i + 3
      && url == url[..i] + "://" + url[i + 3..]
      && IsScheme(url[..i]) && OpensAuthority(url[i + 3..])
  {
    var url := StripAngleBrackets(value);
    var i := IndexOf(url, ':');
    var after := TextAfter(url, ':');
    assert after == url[i + 1..];
    assert IsScheme(url[..i]) by {
      assert forall k :: 0 <= k < i ==> url[..i][k] == url[k];
    }
    assert |url| >= i + 3 && url[i + 3..] == after[2..] && OpensAuthority(after[2..]);
    assert url == url[..i] + "://" + url[i + 3..] by {
      assert after[..2] == "//";
      assert url == url[..i] + [':'] + after;
      assert after == "//" + after[2..];
    }
  }

  /**
    `is_shorthand_iri`: a non-IRI that splits on `:` into exactly two parts and,
    when a non-empty prefix dictionary is passed, whose first part is one of its keys.
   */
  function IsShorthandIri(value: string, prefixes: Option<PrefixMap>): (r: bool)
    ensures r ==> !IsIri(value) && ':' in value
  {
    if IsIri(value) then false
    else if ':' in value then
      if |Split(value, ':')| != 2 then false
      else
        var prefix := Split(value, ':')[0];
        if PrefixesGiven(prefixes) then HasKey(prefixes.value, prefix) else true
    else false
  }

  /**
    The shorthand test in terms of the colon alone: exactly one colon, not an IRI,
    and the text before the colon is a registered prefix whenever prefixes are given.
   */
  lemma ShorthandIriIff(value: string, prefixes: Option<PrefixMap>)
    ensures IsShorthandIri(value, prefixes) <==>
      && !IsIri(value)
      && Count(value, ':') == 1
      && (PrefixesGiven(prefixes) ==> HasKey(prefixes.value, TextBefore(value, ':')))
  {
    SplitLength(value, ':');
    SplitFirst(value, ':');
  }

  /** An IRI with a second colon (a port, say) is never shorthand; neither is a token without one. */
  lemma ShorthandNeedsOneColon(value: string, prefixes: Option<PrefixMap>)
    requires Count(value, ':') != 1
    ensures !IsShorthandIri(value, prefixes)
  {
    ShorthandIriIff(value, prefixes);
  }

  // ---------------------------------------------------------------------------
  // Preparing triple terms
  // ---------------------------------------------------------------------------

  /**
    `prepare_subject_or_predicate`: an IRI is delimited, a shorthand IRI is kept;
    any other token is an `InvalidIRIError` when `ensure_iri` is set and passes
    through unchanged when it is not.
   */
  function PrepareSubjectOrPredicate(token: string, ensureIri: bool): (r: Result<string>)
    ensures r.Err? <==> ensureIri && !IsIri(token) && !IsShorthandIri(token, None)
    ensures r.Err? ==> r.error == InvalidIriError(SubjectOrPredicateNotAnIri)
    ensures r.Ok? && IsIri(token) ==> IsAbsolute(r.value) && StripAngleBrackets(r.value) == StripAngleBrackets(Strip(token))
    ensures r.Ok? && !IsIri(token) ==> r.value == token
  {
    if IsIri(token) then Ok(EnsureAbsolute(token))
    else if IsShorthandIri(token, None) then Ok(token)
    else if ensureIri then Err(InvalidIriError(SubjectOrPredicateNotAnIri))
    else Ok(token)
  }

  /**
    With `ensure_iri` set, a prepared subject or predicate is in canonical form: a
    delimited IRI or a token with exactly one colon.
   */
  lemma PreparedSubjectIsCanonical(token: string)
    requires PrepareSubjectOrPredicate(token, true).Ok?
    ensures var r := PrepareSubjectOrPredicate(token, true).value;
      IsAbsolute(r) || Count(r, ':') == 1
  {
    if !IsIri(token) {
      ShorthandIriIff(token, None);
    }
  }

  /**
    `to_literal(value)` without `as_string`. Any `str`, a `Literal` included, is
    re-typed `xsd:string`, so its value is its text; any other value keeps the
    datatype and lexical form the literal library gives it. The literal is then
    escaped, which changes only string-valued literals.
   */
  function ToLiteral(v: Value): (r: Value)
    ensures r.Lit?
    ensures v.IsStr() ==> r.lit.datatypeIri == XsdString && r.lit.valueIsString
    ensures v.IsStr() && Contains(v.Str(), EscapedQuote) ==> r.lit.lexical == v.Str()
    ensures v.IsStr() && !Contains(v.Str(), EscapedQuote) ==>
      && |r.lit.lexical| >= 2 && StartsWith(r.lit.lexical, "\"") && EndsWith(r.lit.lexical, "\"")
      && UnescapeQuotes(r.lit.lexical[1..|r.lit.lexical| - 1]) == v.Str()
    ensures v.NonText? ==> r == Lit(Literal(v.lexical, v.datatypeIri, false, v.truthy))
  {
    match v
    case Text(s) => EscapeStringLiteral(Lit(Literal(s, XsdString, true, s != "")))
    case Lit(l) => EscapeStringLiteral(Lit(Literal(l.lexical, XsdString, true, l.lexical != "")))
    case NonText(lexical, datatypeIri, truthy) => EscapeStringLiteral(Lit(Literal(lexical, datatypeIri, false, truthy)))
  }

  /**
    `prepare_object` with `as_string` unset. With `ensure_iri` set only a `str` that is
    an IRI (delimited) or a shorthand IRI (kept) gets through; anything else is an
    `InvalidIRIError`. Without it, such strings are prepared the same way and every
    other value becomes an escaped literal.
   */
  function PrepareObject(obj: Value, ensureIri: bool): (r: Result<Value>)
    ensures ensureIri && !obj.IsStr() ==> r == Err(InvalidIriError(ObjectNotAString))
    ensures ensureIri && obj.IsStr() && !IsIri(obj.Str()) && !IsShorthandIri(obj.Str(), None) ==>
      r == Err(InvalidIriError(ObjectNotAnIri))
    ensures !ensureIri ==> r.Ok?
    ensures r.Ok? && obj.IsStr() && IsIri(obj.Str()) ==> r.value == Text(EnsureAbsolute(obj.Str()))
    ensures r.Ok? && obj.IsStr() && !IsIri(obj.Str()) && IsShorthandIri(obj.Str(), None) ==> r.value == obj
    ensures r.Ok? && !(obj.IsStr() && (IsIri(obj.Str()) || IsShorthandIri(obj.Str(), None))) ==> r.value.Lit?
  {
    if ensureIri then
      if !obj.IsStr() then Err(InvalidIriError(ObjectNotAString))
      else if IsIri(obj.Str()) then Ok(Text(EnsureAbsolute(obj.Str())))
      else if IsShorthandIri(obj.Str(), None) then Ok(obj)
      else Err(InvalidIriError(ObjectNotAnIri))
    else if obj.IsStr() && IsIri(obj.Str()) then Ok(Text(EnsureAbsolute(obj.Str())))
    else if obj.IsStr() && IsShorthandIri(obj.Str(), None) then Ok(obj)
    else if obj.Lit? then Ok(EscapeStringLiteral(obj))
    else Ok(ToLiteral(obj))
  }

  // ---------------------------------------------------------------------------
  // Named-graph wrapping
  // ---------------------------------------------------------------------------

  /** The text `encapsulate_named_graph` puts before the content: it opens `GRAPH <g> {`. */
  function GraphOpening(graph: string): (r: string)
    ensures StartsWith(r, "\nGRAPH " + EnsureAbsolute(graph) + " {")
  {
    var head := "\nGRAPH " + EnsureAbsolute(graph) + " {";
    assert (head + "\n    ")[..|head|] == head;
    head + "\n    "
  }

  /** The text `encapsulate_named_graph` puts after the content. */
  const GraphClosing: string := "\n}"

  /**
    `encapsulate_named_graph`: without a named graph the content is returned as is;
    with one, the content is placed inside a `GRAPH <g> { ... }` group graph pattern
    (section 13.3 of the SPARQL 1.1 Query Language), the graph IRI delimited.
   */
  function EncapsulateNamedGraph(ng: Option<string>, content: string): (r: string)
    ensures !NamedGraphSet(ng) ==> r == content
    ensures NamedGraphSet(ng) ==>
      && StartsWith(r, GraphOpening(ng.value))
      && EndsWith(r, GraphClosing)
      && |r| == |GraphOpening(ng.value)| + |content| + |GraphClosing|
      && r[|GraphOpening(ng.value)|..|r| - |GraphClosing|] == content
  {
    if NamedGraphSet(ng) then
      Enclosed(GraphOpening(ng.value), content, GraphClosing);
      GraphOpening(ng.value) + content + GraphClosing
    else content
  }

  /** Reads the content back out of a (possibly) wrapped pattern; `None` when the wrapping is absent. */
  function UnwrapNamedGraph(ng: Option<string>, text: string): Option<string> {
    if !NamedGraphSet(ng) then Some(text)
    else
      var opening := GraphOpening(ng.value);
      if StartsWith(text, opening) && |text| >= |opening| + |GraphClosing| && EndsWith(text, GraphClosing)
      then Some(text[|opening|..|text| - |GraphClosing|])
      else None
  }

  /** Unwrapping a wrapped pattern gives back exactly the content. */
  lemma UnwrapEncapsulate(ng: Option<string>, content: string)
    ensures UnwrapNamedGraph(ng, EncapsulateNamedGraph(ng, content)) == Some(content)
  {
  }

  // ---------------------------------------------------------------------------
  // String literal escaping
  // ---------------------------------------------------------------------------

  /** The two characters `\"` that the escaping heuristic looks for. */
  const EscapedQuote: string := "\\\""

  /** `value.replace('"', '\\"')` */
  function EscapeQuotes(s: string): string {
    ReplaceChar(s, '"', EscapedQuote)
  }

  /** Reads `\"` back as `"`, left to right; all other characters are kept. */
  function UnescapeQuotes(t: string): string {
    if |t| == 0 then ""
    else if |t| >= 2 && t[0] == '\\' && t[1] == '"' then "\"" + UnescapeQuotes(t[2..])
    else [t[0]] + UnescapeQuotes(t[1..])
  }

  /** Whether `escape_string_literal` rewrites `v`: a string-valued literal whose text has no `\"` yet. */
  predicate WillEscape(v: Value) {
    v.Lit? && v.lit.valueIsString && !Contains(v.lit.lexical, EscapedQuote)
  }

  /**
    `escape_string_literal`: a string-valued literal whose text does not yet contain
    `\"` gets every `"` escaped and the whole text wrapped in quotes, typed
    `xsd:string`; every other value (a plain `str`, a non-string literal, text that
    looks escaped already) is returned unchanged.
   */
  function EscapeStringLiteral(v: Value): (r: Value)
    ensures !WillEscape(v) ==> r == v
    ensures WillEscape(v) ==>
      && r.Lit? && r.lit.datatypeIri == XsdString && r.lit.valueIsString
      && |r.lit.lexical| >= 2 && StartsWith(r.lit.lexical, "\"") && EndsWith(r.lit.lexical, "\"")
    ensures WillEscape(v) ==>
      var t := r.lit.lexical[1..|r.lit.lexical| - 1];
      QuotesEscaped(t) && UnescapeQuotes(t) == v.lit.lexical
  {
    if v.Lit? && v.lit.valueIsString && !Contains(v.lit.lexical, EscapedQuote) then
      var x := EscapeQuotes(v.lit.lexical);
      EscapeQuotesEscapesEvery(v.lit.lexical);
      UnescapeEscape(v.lit.lexical);
      assert ("\"" + x + "\"")[1..|x| + 1] == x;
      Lit(Literal("\"" + x + "\"", XsdString, true, true))
    else v
  }

  /** Every quote of the text is escaped: it follows a backslash. */
  predicate QuotesEscaped(t: string) {
    forall i :: 0 <= i < |t| && t[i] == '"' ==> i > 0 && t[i - 1] == '\\'
  }

  /** The replacement leaves no bare quote behind. */
  lemma {:induction false} EscapeQuotesEscapesEvery(s: string)
    ensures QuotesEscaped(EscapeQuotes(s))
  {
    if |s| > 0 {
      var tail := EscapeQuotes(s[1..]);
      EscapeQuotesEscapesEvery(s[1..]);
      var head := if s[0] == '"' then EscapedQuote else [s[0]];
      assert EscapeQuotes(s) == head + tail;
      if |tail| > 0 {
        EscapeQuotesHead(s[1..]);
      }
      forall i | 0 <= i < |head + tail| && (head + tail)[i] == '"'
        ensures i > 0 && (head + tail)[i - 1] == '\\'
      {
        if i >= |head| {
          assert tail[i - |head|] == '"';
        }
      }
    }
  }

  /**
    The escaped text is the only quote-escaped text that unescapes to the original:
    `QuotesEscaped` and `UnescapeQuotes` together determine `value.replace('"', '\\"')`.
   */
  lemma {:induction false} EscapeQuotesUnique(t: string, s: string)
    requires QuotesEscaped(t) && UnescapeQuotes(t) == s
    ensures t == EscapeQuotes(s)
  {
    if |t| > 0 {
      if |t| >= 2 && t[0] == '\\' && t[1] == '"' {
        var rest := t[2..];
        assert QuotesEscaped(rest) by {
          forall j | 0 <= j < |rest| && rest[j] == '"'
            ensures j > 0 && rest[j - 1] == '\\'
          {
            assert t[j + 2] == '"';
          }
        }
        EscapeQuotesUnique(rest, UnescapeQuotes(rest));
        assert s == "\"" + UnescapeQuotes(rest);
        assert s[0] == '"' && s[1..] == UnescapeQuotes(rest);
        assert t == EscapedQuote + rest;
      } else {
        var rest := t[1..];
        assert t[0] != '"';
        assert QuotesEscaped(rest) by {
          forall j | 0 <= j < |rest| && rest[j] == '"'
            ensures j > 0 && rest[j - 1] == '\\'
          {
            assert t[j + 1] == '"';
          }
        }
        EscapeQuotesUnique(rest, UnescapeQuotes(rest));
        assert s == [t[0]] + UnescapeQuotes(rest);
        assert s[0] == t[0] && s[1..] == UnescapeQuotes(rest);
        assert t == [t[0]] + rest;
      }
    }
  }

  /** An escaped text never starts with a bare quote. */
  lemma EscapeQuotesHead(s: string)
    requires |EscapeQuotes(s)| > 0
    ensures EscapeQuotes(s)[0] != '"'
  {
  }

  /** Unescaping undoes escaping, for every text. */
  lemma {:induction false} UnescapeEscape(s: string)
    ensures UnescapeQuotes(EscapeQuotes(s)) == s
  {
    if |s| > 0 {
      var tail := EscapeQuotes(s[1..]);
      UnescapeEscape(s[1..]);
      if s[0] == '"' {
        assert EscapeQuotes(s) == EscapedQuote + tail;
        assert (EscapedQuote + tail)[2..] == tail;
      } else {
        assert EscapeQuotes(s) == [s[0]] + tail;
        if |tail| > 0 {
          EscapeQuotesHead(s[1..]);
        }
        assert ([s[0]] + tail)[1..] == tail;
      }
      assert s == [s[0]] + s[1..];
    }
  }

  /** A quote in the text yields an escaped quote in the escaped text. */
  lemma {:induction false} EscapeQuotesShowsQuote(s: string)
    requires '"' in s
    ensures Contains(EscapeQuotes(s), EscapedQuote)
  {
    var tail := EscapeQuotes(s[1..]);
    if s[0] == '"' {
      assert EscapeQuotes(s) == EscapedQuote + tail;
      assert OccursAt(EscapeQuotes(s), EscapedQuote, 0);
    } else {
      assert '"' in s[1..];
      EscapeQuotesShowsQuote(s[1..]);
      assert EscapeQuotes(s) == [s[0]] + tail + [];
      ContainsExtend(tail, EscapedQuote, [s[0]], []);
    }
  }

  /** Escaping introduces no quote that was not there before. */
  lemma {:induction false} EscapeQuotesKeepsQuoteFree(s: string)
    requires '"' !in s
    ensures EscapeQuotes(s) == s
  {
    if |s| > 0 {
      EscapeQuotesKeepsQuoteFree(s[1..]);
      assert s == [s[0]] + s[1..];
    }
  }

  /** The escaped text ends with a backslash exactly when the text does. */
  lemma EscapeQuotesLast(s: string)
    ensures |EscapeQuotes(s)| > 0 <==> |s| > 0
    ensures |s| > 0 ==> (EscapeQuotes(s)[|EscapeQuotes(s)| - 1] == '\\' <==> s[|s| - 1] == '\\')
  {
    if |s| > 0 {
      var init := s[..|s| - 1];
      var last := s[|s| - 1];
      assert s == init + [last];
      ReplaceCharAppend(init, [last], '"', EscapedQuote);
      assert EscapeQuotes([last]) == (if last == '"' then EscapedQuote else [last]) + EscapeQuotes([]);
    }
  }

  /** A quote that is in the escaped text was in the text. */
  lemma {:induction false} EscapeQuotesQuoteOrigin(s: string)
    requires '"' in EscapeQuotes(s)
    ensures '"' in s
  {
    if |s| > 0 && s[0] != '"' {
      var tail := EscapeQuotes(s[1..]);
      assert EscapeQuotes(s) == [s[0]] + tail;
      assert '"' in tail;
      EscapeQuotesQuoteOrigin(s[1..]);
    }
  }

  /**
    The escaped literal `"X"` contains `\"` exactly when the original text contains
    a quote or ends with a backslash (whose escaped form meets the closing quote).
   */
  lemma EscapedTextShowsEscapedQuote(lex: string)
    ensures Contains("\"" + EscapeQuotes(lex) + "\"", EscapedQuote) <==>
      ('"' in lex || (|lex| > 0 && lex[|lex| - 1] == '\\'))
  {
    var x := EscapeQuotes(lex);
    var w := "\"" + x + "\"";
    ContainsPair(w, '\\', '"');
    ContainsPair(x, '\\', '"');
    EscapeQuotesLast(lex);
    if Contains(w, EscapedQuote) {
      var i :| 0 <= i < |w| - 1 && w[i] == '\\' && w[i + 1] == '"';
      assert i >= 1;
      if i + 1 == |w| - 1 {
        assert x[|x| - 1] == '\\';
      } else {
        assert x[i - 1] == '\\' && x[i] == '"';
        EscapeQuotesQuoteOrigin(lex);
      }
    }
    if '"' in lex {
      EscapeQuotesShowsQuote(lex);
      ContainsExtend(x, EscapedQuote, "\"", "\"");
    } else if |lex| > 0 && lex[|lex| - 1] == '\\' {
      assert w[|w| - 2] == '\\' && w[|w| - 1] == '"';
    }
  }

  /**
    The double-escaping guard works only half the time: escaping an escaped literal
    again leaves it alone exactly when the original text contained a quote or ended
    with a backslash; any other text is wrapped in a second pair of quotes.
   */
  lemma EscapeStringLiteralIdempotentIff(v: Value)
    requires WillEscape(v)
    ensures var once := EscapeStringLiteral(v);
      EscapeStringLiteral(once) == once <==>
        ('"' in v.lit.lexical || (|v.lit.lexical| > 0 && v.lit.lexical[|v.lit.lexical| - 1] == '\\'))
  {
    EscapedTextShowsEscapedQuote(v.lit.lexical);
    var once := EscapeStringLiteral(v);
    assert once.lit.lexical == "\"" + EscapeQuotes(v.lit.lexical) + "\"";
    if !Contains(once.lit.lexical, EscapedQuote) {
      assert |EscapeQuotes(once.lit.lexical)| >= |once.lit.lexical| by { assert |EscapedQuote| == 2; }
    }
  }

  /** The plainest case shows it: `ab` escapes to `"ab"` and then to `"\"ab\""`. */
  lemma EscapeTwiceWrapsTwice()
    ensures var v := Lit(Literal("ab", XsdString, true, true));
      EscapeStringLiteral(EscapeStringLiteral(v)) != EscapeStringLiteral(v)
  {
    var v := Lit(Literal("ab", XsdString, true, true));
    assert !Contains("ab", EscapedQuote) by { ContainsPair("ab", '\\', '"'); }
    EscapeStringLiteralIdempotentIff(v);
  }

  // ---------------------------------------------------------------------------
  // Local names
  // ---------------------------------------------------------------------------

  /** `urlparse(s).fragment`: everything after the first `#`. */
  function Fragment(s: string): string {
    TextAfter(s, '#')
  }

  /**
    `get_local_name`: after removing the delimiters, the fragment when it is
    non-empty, otherwise the last `/`-separated segment.
   */
  function GetLocalName(iri: string): (r: string)
    ensures var s := StripAngleBrackets(iri);
      Fragment(s) != "" ==> s == TextBefore(s, '#') + "#" + r
    ensures var s := StripAngleBrackets(iri);
      Fragment(s) == "" ==>
        && '/' !in r && EndsWith(s, r)
        && ('/' in s ==> s[|s| - |r| - 1] == '/')
        && ('/' !in s ==> r == s)
        && r == TextAfterLast(s, '/')
  {
    var s := StripAngleBrackets(iri);
    var fragment := Fragment(s);
    if fragment != "" then fragment
    else
      var segments := Split(s, '/');
      SplitLast(s, '/');
      segments[|segments| - 1]
  }

  /** Stripping freshly added delimiters gives back the text. */
  lemma StripAngleBracketsOfDelimited(s: string)
    ensures StripAngleBrackets("<" + s + ">") == s
  {
    var iri := "<" + s + ">";
    assert iri[0] == '<' && iri[|iri| - 1] == '>';
    assert iri[1..|iri| - 1] == s;
  }

  /** The local name of `<a/b>` with no `#` and no `/` in `b` is `b`. */
  lemma LocalNameIsLastSegment(a: string, b: string)
    requires '#' !in a + "/" + b && '/' !in b
    ensures GetLocalName("<" + a + "/" + b + ">") == b
  {
    var s := a + "/" + b;
    var iri := "<" + s + ">";
    assert iri == "<" + a + "/" + b + ">";
    StripAngleBracketsOfDelimited(s);
    var r := GetLocalName(iri);
    assert Fragment(s) == [];
    assert r == TextAfterLast(s, '/');
    TextAfterLastAt(a, b, '/');
  }

  /** The local name of `<a#f>` with no `#` in `a` and a non-empty `f` is `f`. */
  lemma LocalNameIsFragment(a: string, f: string)
    requires '#' !in a && f != ""
    ensures GetLocalName("<" + a + "#" + f + ">") == f
  {
    var s := a + "#" + f;
    var iri := "<" + s + ">";
    assert iri == "<" + a + "#" + f + ">";
    StripAngleBracketsOfDelimited(s);
    IndexOfAt(a, f, '#');
    assert s[|a| + 1..] == f;
    assert Fragment(s) == f;
    var r := GetLocalName(iri);
  }

  /** Example of `LocalNameIsLastSegment`: `get_local_name("<http://example.org/subject>")` is `subject`. */
  lemma LocalNameOfPathIri()
    ensures GetLocalName("<http://example.org/subject>") == "subject"
  {
    assert "<http://example.org/subject>" == "<" + "http://example.org" + "/" + "subject" + ">";
    LocalNameIsLastSegment("http://example.org", "subject");
  }

  /** Example of `LocalNameIsFragment`: `get_local_name("<http://example.org/ns#frag>")` is `frag`. */
  lemma LocalNameOfFragmentIri()
    ensures GetLocalName("<http://example.org/ns#frag>") == "frag"
  {
    assert "<http://example.org/ns#frag>" == "<" + "http://example.org/ns" + "#" + "frag" + ">";
    LocalNameIsFragment("http://example.org/ns", "frag");
  }
}

=== FILE: wrappers.dfy ===
/** Failure-carrying datatypes shared by the model, and the errors the client raises. */
module Wrappers {

  /** Python's `Optional[T]`: `None` or a present value. */
  datatype Option<+T> = None | Some(value: T)

  /** Which `raise InvalidIRIError(...)` site produced the error. */
  datatype IriErrorSite =
    | ObjectNotAString            // prepare_object: the value is not a str
    | ObjectNotAnIri              // prepare_object: a str that is neither IRI nor shorthand
    | SubjectOrPredicateNotAnIri  // prepare_subject_or_predicate with ensure_iri

  /** The exceptions of the client that the modelled code raises. */
  datatype Error = InvalidIriError(site: IriErrorSite)

  /** A value, or the exception raised instead of returning one. */
  datatype Result<+T> = Ok(value: T) | Err(error: Error)
}
